=== FILE: README.md ===
# WordPress-to-Hugo migration, modelled in Dafny

This project models the two migration scripts of the blog repository.

- `migrate.py` moves exported WordPress Markdown posts into a Hugo site. It:
  - splits off each post's YAML frontmatter and rewrites it as TOML;
  - writes `+++`-delimited page bundles;
  - gives colliding slugs numeric suffixes;
  - copies post images without overwriting;
  - leaves up-to-date posts alone.
- `migrate_comments.py` moves approved comments from a WordPress XML export into GitHub Discussions (the Giscus comment store). It:
  - filters the export for published posts and approved comments;
  - formats each comment, with a long-form date when the timestamp parses;
  - opens one discussion per post, titled by the post's page path;
  - in a dry run, only announces what it would do.

Modules, one per concern:

| module | file | models |
|---|---|---|
| `Results` | results.dfy | `Option` and `Result` |
| `Text` | text.dfy | `str.lower` (ASCII), `str.strip`, `str(int)`, `str.find`, `join`/`split` |
| `Frontmatter` | frontmatter.dfy | the delimiter split in `migrate_post` |
| `Toml` | toml.dfy | `yaml_to_toml` |
| `PostWriter` | postwriter.dfy | `rewrite_image_refs` and `migrate_post` on an abstract destination |
| `Slugs` | slugs.dfy | the slug-collision handling in `main`, as written and corrected |
| `PostMigration` | postmigration.dfy | the main loop of `migrate.py` |
| `Export` | export.dfy | `parse_wordpress_xml` |
| `CommentFormat` | commentformat.dfy | `format_comment` (including the `strptime`/`strftime` date) and `discussion_title_for_post` |
| `Discussions` | discussions.dfy | the category match of `get_repo_and_category` and the `--repo` split |
| `CommentMigration` | commentmigration.dfy | `main` of `migrate_comments.py` as a trace of announcements and requests |

The file system is a map from slug to post directory. The YAML and XML parsers are represented by their results. The discussion platform is represented by its answer to the repository query. The dry-run path and the live path of the comment migrator produce a sequence of `Step`s. Their properties are stated through views of that trace:

- the requests sent;
- the discussions created;
- the comments added, overall and per discussion.

The docstring of `migrate.py` (migrate.py:10) promises that a re-run is idempotent, skipping files that already exist with matching content. The code keeps that promise when the resolved slugs are distinct (for documents without a carriage return). When two posts resolve to the same slug it can break it. The model follows the code, and Findings gives an input where a re-run changes the destination. A post that is already up to date returns early (migrate.py:83-84), so none of its images are copied. `PostWriter.MigratePost` does the same.

## Model

| member | source | states |
|---|---|---|
| Frontmatter.Split | migrate.py:59-69 | A file not starting with `---` is rejected as having no frontmatter. A file with no `\n---` from index 3 on is rejected as unclosed. Otherwise, opener + frontmatter + closer + body rebuild the file exactly, and the frontmatter holds no closer (the first closer is taken). |
| Frontmatter.SplitAssemble | migrate.py:59-69 | Splitting an assembled document gives back its frontmatter and body if and only if no closer starts inside the frontmatter. |
| PostWriter.Convert | migrate.py:59-79 | A file without the `---` opener is skipped as having no frontmatter, and an unclosed one as unclosed, exactly in those cases. A YAML parse error skips the post, carrying the loader's message, exactly when the frontmatter splits but does not load. The run crashes exactly when the frontmatter loads to a truthy non-mapping. A converted document always opens with `+++` and a newline. |
| PostWriter.Compose | migrate.py:79 | The output document is the TOML text and the body, each behind a newline, between `+++` delimiters. |
| PostWriter.ComposeRoundTrip | migrate.py:79 | The composed `+++` document splits back into the TOML text and the body. |
| PostWriter.ConvertCarriesToml | migrate.py:70-79 | When the frontmatter loads to a mapping, or to a falsy document read as the empty mapping, the converted document splits at `+++` into that mapping's TOML and the unchanged body. |
| PostWriter.BodyPreserved | migrate.py:43-45 | The body after the closing `---` ends the output document unchanged, because image references are not rewritten. |
| PostWriter.CopyMissing | migrate.py:88-94 | After copying, the destination folder holds every source and destination file. A file already at the destination keeps its content. A missing file gets the source's content. |
| PostWriter.CopyMissingIdempotent | migrate.py:91-94 | Copying the same images a second time changes nothing. |
| PostWriter.EnsureDir | migrate.py:82 | After `mkdir(exist_ok=True)` the post directory exists, and an existing one is left as it was. |
| PostWriter.MigratePost | migrate.py:48-96 | A skipped post leaves the destination untouched. Other slugs' directories never change. A migrated post's index holds the converted document. Existing images keep their content. The result is "up to date" exactly when the index already held that document, and then nothing changes. A written post with an image folder ends with every source image name in its destination folder, and each image that was missing there holds the source's content. |
| PostWriter.MigrateTwice | migrate.py:81-86 | Migrating an already migrated post again reports it up to date and changes nothing. |
| PostWriter.MigratedStaysUpToDate | migrate.py:81-84 | A destination that still holds the written directory finds the post up to date and is left unchanged. |
| PostWriter.UnmigratedAnywhere | migrate.py:58-75 | A post that fails to convert is reported the same way against any destination, which is left unchanged. |
| PostWriter.NoOpenerSkipped | migrate.py:59-61 | A file without the opening `---` is skipped and writes nothing. |
| Toml.YamlToToml | migrate.py:40 | The output is the rendered entries joined by newlines. |
| Toml.DateRule | migrate.py:27-29 | A `date` whose value is a `YYYY-MM-DD` date becomes `date = ` and an RFC 3339 timestamp. Its year, month and day read back as the value's, and its hour, minute and second are zero, in UTC. |
| Toml.DraftRule | migrate.py:30-31 | A `draft` flag read as `True` or `False` becomes exactly the TOML boolean `true` or `false`, unquoted. |
| Toml.CoverRule | migrate.py:32-33 | For an image name without a newline, `coverImage` becomes exactly two lines: the `[cover]` table header and `  image = "images/<name>"`. |
| Toml.ListRule | migrate.py:34-36 | A list becomes `[]` when empty and `["x"]` for one item. For any non-empty list, appending an item adds `, "item"` before the closing bracket. |
| Toml.QuotedItemsSnoc | migrate.py:35 | The quoted items of a longer list are those of its prefix, `, `, and the new item quoted. |
| Toml.ScalarRule | migrate.py:37-39 | Any other value is double-quoted. Its inner text has every quote backslash-escaped and unescapes to the value's text. |
| Toml.EscapeQuotesEscaped | migrate.py:38 | After escaping, every double quote is preceded by a backslash. |
| Toml.EscapeRoundTrip | migrate.py:38 | Unescaping `\"` recovers the original string. |
| Toml.YamlToTomlAppend | migrate.py:25-40 | Serialising a concatenation equals serialising each half, with a newline between. |
| Toml.OneLinePerEntry | migrate.py:40 | When no entry spans several lines, splitting the output at newlines gives back exactly the rendered entries. |
| Toml.Example | migrate.py:24-40 | A concrete frontmatter with date, draft, tags and cover renders to the expected four TOML entries. |
| Slugs.Step | migrate.py:123-125 | A warning is raised exactly when the slug was seen before. |
| Slugs.StepSpec | migrate.py:123-129 | A new slug keeps its name. A repeated one gets a longer name that starts with the slug, and the warning names both. The slug's counter is at least one afterwards, and other counters are untouched. |
| Slugs.ResolveAll | migrate.py:122-129 | One final slug and one warning slot per discovered post. |
| Slugs.ResolveAllWarnings | migrate.py:123-125 | Every warning raised renames a slug of the run to a different name. |
| Slugs.ResolveAllByCount | migrate.py:122-129 | The registry counts each slug's occurrences. A slug's first occurrence keeps its name and has no warning. Its k-th repeat becomes `slug-k` with one warning naming the old and new slug. |
| Slugs.CounterStep | migrate.py:126 | Each further post with a known slug increments that slug's counter by exactly one. |
| Slugs.SuffixedInjective | migrate.py:124 | Different suffixes of one slug give different names. |
| Slugs.CollisionAsWritten | migrate.py:122-129 | As written, the slugs `a, a, a-1` resolve to `a, a-1, a-1`: two posts share an output slug. |
| Slugs.StepUnique | migrate.py:122-129 | The corrected step hands out a name not yet used and records it. A fresh slug keeps its name with no warning. A used slug gets `slug-k` for some k ≥ 1, with a warning. |
| Slugs.ResolveAllUniqueUsed | migrate.py:122-129 | The corrected registry holds exactly the names handed out. |
| Slugs.ResolveAllUniqueDistinct | migrate.py:122-129 | The corrected resolver gives every post a different output slug. |
| Slugs.FirstOccurrenceKept | migrate.py:128-129 | In the corrected resolver, a slug no earlier post received keeps its name and raises no warning. |
| PostMigration.MigrateUnder | migrate.py:110-133 | The pass processes every post unless it crashes. Its migrated count is the number of up-to-date and written outcomes. Directories of slugs not handed out are left as they were. |
| PostMigration.CrashEndsPass | migrate.py:131-133 | Only a crash ends the pass early, and it is the last outcome. A skipped post does not stop later posts. |
| PostMigration.PassWritesOwnSlugs | migrate.py:116-133 | A pass only creates directories for the slugs it hands out. |
| PostMigration.PassKeepsImages | migrate.py:91-94 | A pass never overwrites or removes an image already in the destination. |
| PostMigration.Run | migrate.py:99-140 | The run returns the missing-export error exactly when the export root is missing. A crash while migrating is reported as `aborted`, not as an error. Otherwise the migrated count and the warnings never exceed the posts. Every warning renames a discovered slug to a different name. |
| PostMigration.RunUnique | migrate.py:99-140 | The same run with the corrected resolver fails exactly when the export root is missing. |
| PostMigration.MigrateUnderIdempotent | migrate.py:81-86 | Re-migrating under distinct slugs over unchanged input writes nothing (for documents without a carriage return). The destination and the migrated count stay the same. |
| PostMigration.RunIdempotent | migrate.py:10 | As written, a second run over unchanged input leaves the destination unchanged and reports the same count whenever the resolved slugs are distinct. |
| PostMigration.RunUniqueIdempotent | migrate.py:10 | With the corrected resolver, every second run over unchanged input writes nothing (for documents without a carriage return), leaves the destination unchanged and reports the same count. |
| PostMigration.AsWrittenRerunDiffers | migrate.py:122-133 | As written, the posts `a` (no frontmatter), `a` and `a-1` against a destination holding the second post's document under `a-1` give a second run whose destination differs from the first's. After the first run, no directory holds the second post's document. |
| Export.FieldAsWritten | migrate_comments.py:109-113 | As written, a missing element and an element without child elements both give the default. |
| Export.Field | migrate_comments.py:109-113 | Corrected lookup: a missing element gives the default, a present non-empty text is returned, and nothing else is ever returned. |
| Export.ToCommentFields | migrate_comments.py:108-115 | A kept comment is approved. Under the intended lookup, each field is its default or the text of its element. As written, a leaf author element gives `Anonymous`. |
| Export.LeafFieldsLostAsWritten | migrate_comments.py:108-115 | As written, a comment whose fields are all missing or leaf elements gets every default. |
| Export.AuthorLostAsWritten | migrate_comments.py:111 | As written, an approved comment with author `Alice` is reported as by `Anonymous`. The intended lookup keeps `Alice`. |
| Export.IntendedKeepsText | migrate_comments.py:109-113 | Under the intended lookup, a field's non-empty text reaches the comment unchanged. |
| Export.ApprovedCommentsCount | migrate_comments.py:103-106 | Some comment is kept if and only if some comment element carries an approval marker. |
| Export.LookupsAgreeOnShape | migrate_comments.py:87-118 | Both lookups yield the same number of posts, with the same titles, slugs and comment counts. Only the comment fields differ. |
| Export.ApprovedComments | migrate_comments.py:103-115 | The kept comments are never more than the comment elements, and every kept comment is approved. |
| Export.ApprovedCommentsSingle | migrate_comments.py:104-106 | A comment survives if and only if its approval text is `1` or `approve`. |
| Export.ApprovedCommentsAppend | migrate_comments.py:103-115 | Comment filtering distributes over concatenation, so document order is kept. |
| Export.ParseExport | migrate_comments.py:83-120 | At most one post per item. Every post has at least one comment, and all of them are approved. |
| Export.ParseExportSingle | migrate_comments.py:88-118 | An item yields a post if and only if it is a published post with an approved comment. |
| Export.ParseExportAppend | migrate_comments.py:87-120 | Post filtering distributes over concatenation, so document order is kept. |
| Export.ParseExportCount | migrate_comments.py:87-120 | The number of posts equals the number of contributing items. |
| Export.UnpublishedSkipped | migrate_comments.py:89-95 | An item with a missing or different post type or status yields nothing. |
| Export.CommentDefaults | migrate_comments.py:108-115 | A comment with every field missing gets `""`, `"0"`, `"Anonymous"`, `""`, `""`, and is approved. |
| Export.PostDefaults | migrate_comments.py:97-100 | Without title and slug elements, a post is titled `(no title)` and has an empty slug. |
| CommentFormat.YearLength | migrate_comments.py:210 | The twelve month lengths add up to 366 days in a Gregorian leap year and 365 otherwise. |
| CommentFormat.ParseTimestamp | migrate_comments.py:210 | A parsed timestamp is always a valid calendar datetime. |
| CommentFormat.ParseRender | migrate_comments.py:210 | Every valid datetime written as `%Y-%m-%d %H:%M:%S` parses back to itself. |
| CommentFormat.FieldsRender | migrate_comments.py:210 | Fields that fit their widths are read back from the `%Y-%m-%d %H:%M:%S` text, even when they do not form a valid date. |
| CommentFormat.RenderParse | migrate_comments.py:210 | Every string that parses is exactly the rendering of its parsed value. |
| CommentFormat.DisplayDate | migrate_comments.py:208-213 | An unparsable date is shown unchanged. A parsed one is shown as month name, unpadded day, comma and year. |
| CommentFormat.DayUnpadded | migrate_comments.py:211 | `%-d` gives one or two digits and never a leading zero. |
| CommentFormat.LongDateInjective | migrate_comments.py:211 | Different calendar dates never display alike. |
| CommentFormat.DisplayDateOrdinary | migrate_comments.py:208-211 | `2019-03-05 14:22:01` is shown as `March 5, 2019`. |
| CommentFormat.DisplayDateLeapDay | migrate_comments.py:208-211 | `2024-02-29 00:00:00` is shown as `February 29, 2024`. |
| CommentFormat.DisplayDateImpossibleDay | migrate_comments.py:212-213 | `2023-02-29 00:00:00` does not parse and is shown unchanged. |
| CommentFormat.FormatCommentLayout | migrate_comments.py:215-220 | A formatted comment is the header, then the content without surrounding whitespace, then the provenance footer. |
| CommentFormat.FormatIgnoresPadding | migrate_comments.py:217 | Whitespace around a comment's text does not change the formatted comment. |
| CommentFormat.DiscussionTitleLayout | migrate_comments.py:223-228 | The title is `/posts/`, the slug, and `/`. |
| CommentFormat.DiscussionTitleInjective | migrate_comments.py:223-228 | Different slugs give different discussion titles. |
| Discussions.ResolveCategory | migrate_comments.py:157-163 | The lookup succeeds if and only if some category name matches ignoring case. It then returns the first match's id. Otherwise the error names every available category. |
| Discussions.ResolveCategoryCaseInsensitive | migrate_comments.py:157 | Requested names that lowercase alike resolve alike. |
| Discussions.CaseInsensitiveExample | migrate_comments.py:157 | `general` selects the category named `General`. |
| Discussions.SplitRepo | migrate_comments.py:243 | Splitting fails exactly when there is no slash. Otherwise owner, `/` and name rebuild the input, and the owner has no slash. |
| Discussions.SplitRepoJoin | migrate_comments.py:243 | A slash-free owner joined to any name by `/` splits back into both. |
| Text.Strip | migrate_comments.py:217 | `strip()` returns a trimmed string that the input surrounds with whitespace only. |
| Text.StripUnique | migrate_comments.py:217 | Any whitespace padding around a trimmed string is removed exactly. |
| Text.Lower | migrate_comments.py:157 | Lowercasing keeps the length, folds each letter and leaves no upper-case ASCII letter. |
| CommentMigration.Main | migrate_comments.py:233-282 | The run fails with a bad-repository error exactly on a `--repo` without a slash. It fails with a missing-category error exactly when a live run with something to migrate finds no matching category. A live run that sends anything starts with the repository query. |
| CommentMigration.DryRunStepsShape | migrate_comments.py:254-259 | A dry run announces one line per post and one per comment, and sends no request. |
| CommentMigration.LiveStepsShape | migrate_comments.py:265-280 | The live loop sends one creation per post and one request per comment. Every creation goes to the run's repository and category, and every comment goes to a discussion this loop created. |
| CommentMigration.LiveStepsOrdered | migrate_comments.py:265-280 | The creations before each comment request reach exactly that comment's discussion. Each discussion is created before its comments are added, and they go to it rather than to an earlier one, before the next post's discussion is created. |
| CommentMigration.DryRunViews | migrate_comments.py:254-259 | A dry run sends no request. It announces one discussion per post, titled by the post's slug, and one line per comment. |
| CommentMigration.MainDryRun | migrate_comments.py:254-259 | The dry-run path of `main` sends no request and reports no migrated comment. |
| CommentMigration.LiveTitles | migrate_comments.py:265-274 | The live loop creates one discussion per post, under its title, in order. |
| CommentMigration.LiveComments | migrate_comments.py:276-280 | The live loop adds every formatted comment in order. It sends one request per discussion and one per comment. |
| CommentMigration.LiveAddedTo | migrate_comments.py:274-280 | Each created discussion receives exactly its own post's comments, in order. |
| CommentMigration.MainLive | migrate_comments.py:261-282 | A live run that finds its category creates one discussion per parsed post and adds each post's formatted comments to its own discussion. Each comment is added after its discussion is created and before the next one is. The reported count equals the comments added. |
| CommentMigration.MainCategoryMissing | migrate_comments.py:158-162 | When the category is missing, only the repository query is sent and no discussion is created. |

## Left out

- File reading and writing, and the year/month/post directory walk. Discovery is given as the sequence of posts it yields, in order. The `_drafts` and non-directory skips are therefore not modelled.
- A post directory without `index.md`: `read_text` (migrate.py:56) raises `FileNotFoundError`, which is not caught and ends the whole run. Discovery yields each post with its text, so this crash is not modelled.
- The YAML loader. Its result is a parameter: a mapping of entries (each value carrying Python's `str` of it), some other document, or a parse error. The `or {}` fallback for a falsy document is modelled.
- `PostWriter.MigratePost`: the up-to-date test compares the stored document with the new one directly. The script reads the stored file back with `read_text`, which turns `\r\n` and `\r` into `\n`. A document holding a carriage return, for example from a YAML string value containing `\r\n`, is never up to date in the script. Each run rewrites it with the same content and copies any missing images, where the model reports it up to date and copies nothing. The index holds the same document either way. The outcome differs (written in the script, up to date in the model), and so does the image copy on that run.
- `PostWriter.MigratePost`: calling `.items()` on a truthy non-mapping document raises an uncaught exception. This is modelled as the outcome `Crashed`, which ends the run (`aborted`). The traceback is not modelled.
- Image folders are flat maps from file name to bytes. Sub-directories inside `images/` and the metadata `copy2` preserves are not modelled.
- The printed progress lines, the summary and the warning list are not modelled as output. Warnings are kept as `Collision` values, and their text is given by `Slugs.WarningText`.
- The XML parser and namespace resolution. An item is given as the results of its `find` calls.
- GraphQL transport, HTTP errors, timeouts, the token and argument parsing. The repository query's answer is a parameter, and a created discussion is referred to by its position, standing in for the id the API returns.
- The created discussion's body is carried in the trace as the post title it names. `Step.Text` and `DiscussionBody` give the full text.
- `Export.ParseExport` takes the lookup as a parameter. The comment migrator's `main` uses the lookup as written, so its comments carry default fields whenever the export's fields are leaf elements.
- `Toml.DateRule` covers a date value only. A YAML timestamp with a time of day is shown by Python with its time, and the rendered line is then not a TOML date-time. The model does not interpret TOML, so it also does not state that keys after a `[cover]` header fall into the `cover` table.
- `CommentFormat.ParseTimestamp`: `strptime` is modelled strictly, as exactly nineteen characters with fixed-width fields. Python also accepts single-digit fields, such as `2024-1-5 1:2:3`. Those dates are shown raw in the model but in long form by the script.
- `CommentFormat.DisplayDate`: the year is shown as the four digits it was parsed from. `%Y` on some platforms drops leading zeros for years below 1000.
- `Text.Lower`: lowercases ASCII letters only. Python lowercases every Unicode letter.
- The rest of the repository (the Hugo site, its theme and scripts) is not part of this model.

## Findings

| source | as written | input that shows it | evidently intended | confidence | as-written member | corrected member |
|---|---|---|---|---|---|---|
| migrate.py:122-129 | A renamed slug `slug-N` is never entered in `slugs_seen`, so a later post whose own slug equals it is not detected as a collision | posts with slugs `a`, `a`, `a-1` get output slugs `a`, `a-1`, `a-1`; the third overwrites the second | every post gets its own output slug | not executed | Slugs.CollisionAsWritten | Slugs.ResolveAllUniqueDistinct |
| migrate.py:122-133 | The docstring (migrate.py:10) promises an idempotent re-run, but two posts resolved to the same slug overwrite each other whenever both are written, so a re-run can change the destination again | posts `a` (no frontmatter), `a` and `a-1`, against a destination already holding the second post's document under `a-1`: the second run changes the destination again | a second run over unchanged input changes nothing | not executed | PostMigration.AsWrittenRerunDiffers | PostMigration.RunUniqueIdempotent |
| migrate_comments.py:109-113 | `(c.find(..) or _empty())` tests an ElementTree element for truth; a leaf element (no children) is falsy in Python 3.11 and earlier, and still in 3.12 and 3.13, which only add a DeprecationWarning (later versions may change this), so even a present field falls back to `_empty()` and its default | a comment whose `wp:comment_author` is `Alice` is migrated as by `Anonymous` (and every id, date and content becomes its default) | use the element's text when the element exists | not executed | Export.AuthorLostAsWritten | Export.IntendedKeepsText |

=== FILE: commentformat.dfy ===
/**
 * Rendering a migrated comment (migrate_comments.py, `format_comment` and
 * `discussion_title_for_post`).
 *
 * A comment date is parsed with `strptime(date, "%Y-%m-%d %H:%M:%S")` and, on
 * success, shown as `strftime("%B %-d, %Y")`: the English month name, the day
 * without zero padding and the year. A date that does not parse is shown as
 * it came. Parsing is modelled strictly: exactly nineteen characters with
 * two-digit fields and a four-digit year, and a datetime the calendar
 * accepts (year 1 to 9999, the month's real length, leap years included,
 * seconds below 60).
 */
module CommentFormat {
  import opened Results
  import opened Text
  import Export

  datatype DateTime = DateTime(year: nat, month: nat, day: nat, hour: nat, minute: nat, second: nat)

  // ---------------------------------------------------------------------------
  // Calendar
  // ---------------------------------------------------------------------------

  predicate LeapYear(y: nat) {
    (y % 4 == 0 && y % 100 != 0) || y % 400 == 0
  }

  function DaysInMonth(y: nat, m: nat): (d: nat)
    requires 1 <= m <= 12
    ensures 28 <= d <= 31
  {
    if m == 2 then (if LeapYear(y) then 29 else 28)
    else if m == 4 || m == 6 || m == 9 || m == 11 then 30
    else 31
  }

  /** The days of the months before month `m` of year `y`. */
  function DaysBefore(y: nat, m: nat): nat
    requires 1 <= m <= 13
  {
    if m == 1 then 0 else DaysBefore(y, m - 1) + DaysInMonth(y, m - 1)
  }

  /** The twelve month lengths add up to a Gregorian year: 366 days in a leap year, 365 otherwise. */
  lemma YearLength(y: nat)
    ensures DaysBefore(y, 13) == if LeapYear(y) then 366 else 365
  {
    assert DaysBefore(y, 2) == DaysBefore(y, 1) + DaysInMonth(y, 1);
    assert DaysBefore(y, 3) == DaysBefore(y, 2) + DaysInMonth(y, 2);
    assert DaysBefore(y, 4) == DaysBefore(y, 3) + DaysInMonth(y, 3);
    assert DaysBefore(y, 5) == DaysBefore(y, 4) + DaysInMonth(y, 4);
    assert DaysBefore(y, 6) == DaysBefore(y, 5) + DaysInMonth(y, 5);
    assert DaysBefore(y, 7) == DaysBefore(y, 6) + DaysInMonth(y, 6);
    assert DaysBefore(y, 8) == DaysBefore(y, 7) + DaysInMonth(y, 7);
    assert DaysBefore(y, 9) == DaysBefore(y, 8) + DaysInMonth(y, 8);
    assert DaysBefore(y, 10) == DaysBefore(y, 9) + DaysInMonth(y, 9);
    assert DaysBefore(y, 11) == DaysBefore(y, 10) + DaysInMonth(y, 10);
    assert DaysBefore(y, 12) == DaysBefore(y, 11) + DaysInMonth(y, 11);
    assert DaysBefore(y, 13) == DaysBefore(y, 12) + DaysInMonth(y, 12);
  }

  /** A datetime Python's `datetime` constructor accepts. */
  predicate Valid(dt: DateTime) {
    && 1 <= dt.year <= 9999
    && 1 <= dt.month <= 12
    && 1 <= dt.day <= DaysInMonth(dt.year, dt.month)
    && dt.hour < 24 && dt.minute < 60 && dt.second < 60
  }

  const MonthNames: seq<string> := [
    "January", "February", "March", "April", "May", "June",
    "July", "August", "September", "October", "November", "December"]

  /** `%B` in the C locale. */
  function MonthName(m: nat): (r: string)
    requires 1 <= m <= 12
    ensures 3 <= |r|
    ensures ' ' !in r
  {
    MonthNames[m - 1]
  }

  lemma MonthNameInjective(m: nat, n: nat)
    requires 1 <= m <= 12 && 1 <= n <= 12
    requires MonthName(m) == MonthName(n)
    ensures m == n
  {
  }

  // ---------------------------------------------------------------------------
  // The fixed source timestamp format
  // ---------------------------------------------------------------------------

  /** `n` as exactly `width` decimal digits, zero-padded. */
  function Padded(n: nat, width: nat): (r: string)
    ensures |r| == width
    ensures forall i :: 0 <= i < |r| ==> IsDigit(r[i])
  {
    if width == 0 then "" else Padded(n / 10, width - 1) + [DigitChar(n % 10)]
  }

  function Pow10(k: nat): nat {
    if k == 0 then 1 else 10 * Pow10(k - 1)
  }

  /** Fixed-width digits read back as the number they were padded from. */
  lemma {:induction false} PaddedValue(n: nat, width: nat)
    requires n < Pow10(width)
    ensures DigitsValue(Padded(n, width)) == n
  {
    if width > 0 {
      var r := Padded(n, width);
      var q, d := n / 10, n % 10;
      assert n == 10 * q + d;
      assert q < Pow10(width - 1);
      assert r[..|r| - 1] == Padded(q, width - 1);
      assert r[|r| - 1] == DigitChar(d);
      assert DigitValue(DigitChar(d)) == d;
      PaddedValue(q, width - 1);
      assert DigitsValue(r) == 10 * DigitsValue(r[..|r| - 1]) + DigitValue(r[|r| - 1]);
    }
  }

  /** Fixed-width digits are the padding of their own value. */
  lemma {:induction false} ValuePadded(s: string)
    requires forall i :: 0 <= i < |s| ==> IsDigit(s[i])
    ensures Padded(DigitsValue(s), |s|) == s
  {
    if |s| > 0 {
      var init := s[..|s| - 1];
      ValuePadded(init);
      var v := DigitsValue(s);
      assert v / 10 == DigitsValue(init);
      assert v % 10 == DigitValue(s[|s| - 1]);
      assert s == init + [s[|s| - 1]];
    }
  }

  /** The positions of the six numeric fields in `YYYY-MM-DD HH:MM:SS`. */
  predicate DigitsAt(s: string, lo: nat, hi: nat)
    requires lo <= hi <= |s|
  {
    forall i :: lo <= i < hi ==> IsDigit(s[i])
  }

  /** The shape `YYYY-MM-DD HH:MM:SS`: separators in place and digits everywhere else. */
  predicate WellFormed(s: string) {
    && |s| == 19
    && DigitsAt(s, 0, 4) && s[4] == '-' && DigitsAt(s, 5, 7) && s[7] == '-' && DigitsAt(s, 8, 10)
    && s[10] == ' '
    && DigitsAt(s, 11, 13) && s[13] == ':' && DigitsAt(s, 14, 16) && s[16] == ':' && DigitsAt(s, 17, 19)
  }

  function Fields(s: string): DateTime
    requires WellFormed(s)
  {
    DateTime(
      DigitsValue(s[0..4]), DigitsValue(s[5..7]), DigitsValue(s[8..10]),
      DigitsValue(s[11..13]), DigitsValue(s[14..16]), DigitsValue(s[17..19]))
  }

  /** `strptime` with the source format, strictly: a well-formed string naming a valid datetime. */
  function ParseTimestamp(s: string): (r: Option<DateTime>)
    ensures r.Some? ==> Valid(r.value)
  {
    if WellFormed(s) && Valid(Fields(s)) then Some(Fields(s)) else None
  }

  /** A datetime in the source format. */
  function RenderTimestamp(dt: DateTime): string {
    Padded(dt.year, 4) + "-" + Padded(dt.month, 2) + "-" + Padded(dt.day, 2) + " "
      + Padded(dt.hour, 2) + ":" + Padded(dt.minute, 2) + ":" + Padded(dt.second, 2)
  }

  /** Every valid datetime written in the source format parses back to itself. */
  lemma ParseRender(dt: DateTime)
    requires Valid(dt)
    ensures ParseTimestamp(RenderTimestamp(dt)) == Some(dt)
  {
    FieldsRender(dt);
  }

  /** Fields that fit their widths are read back from the source format, valid or not. */
  lemma {:induction false} FieldsRender(dt: DateTime)
    requires dt.year < 10000 && dt.month < 100 && dt.day < 100
    requires dt.hour < 100 && dt.minute < 100 && dt.second < 100
    ensures WellFormed(RenderTimestamp(dt)) && Fields(RenderTimestamp(dt)) == dt
  {
    var s := RenderTimestamp(dt);
    assert s[0..4] == Padded(dt.year, 4);
    assert s[5..7] == Padded(dt.month, 2);
    assert s[8..10] == Padded(dt.day, 2);
    assert s[11..13] == Padded(dt.hour, 2);
    assert s[14..16] == Padded(dt.minute, 2);
    assert s[17..19] == Padded(dt.second, 2);
    assert Pow10(2) == 100 && Pow10(4) == 10000 by {
      assert Pow10(1) == 10;
      assert Pow10(3) == 1000;
    }
    PaddedValue(dt.year, 4);
    PaddedValue(dt.month, 2);
    PaddedValue(dt.day, 2);
    PaddedValue(dt.hour, 2);
    PaddedValue(dt.minute, 2);
    PaddedValue(dt.second, 2);
  }

  /** Every string that parses is the source-format rendering of what it parses to. */
  lemma {:induction false} RenderParse(s: string)
    requires ParseTimestamp(s).Some?
    ensures RenderTimestamp(ParseTimestamp(s).value) == s
  {
    var dt := ParseTimestamp(s).value;
    assert WellFormed(s) && dt == Fields(s);
    ValuePadded(s[0..4]);
    ValuePadded(s[5..7]);
    ValuePadded(s[8..10]);
    ValuePadded(s[11..13]);
    ValuePadded(s[14..16]);
    ValuePadded(s[17..19]);
    assert Padded(dt.year, 4) == s[0..4];
    assert Padded(dt.month, 2) == s[5..7];
    assert Padded(dt.day, 2) == s[8..10];
    assert Padded(dt.hour, 2) == s[11..13];
    assert Padded(dt.minute, 2) == s[14..16];
    assert Padded(dt.second, 2) == s[17..19];
    SourceFormatPieces(s);
  }

  /** A well-formed string is its six fields with the separators between them. */
  lemma SourceFormatPieces(s: string)
    requires |s| == 19 && s[4] == '-' && s[7] == '-' && s[10] == ' ' && s[13] == ':' && s[16] == ':'
    ensures s == s[0..4] + "-" + s[5..7] + "-" + s[8..10] + " " + s[11..13] + ":" + s[14..16] + ":" + s[17..19]
  {
    var date := s[0..4] + "-" + s[5..7] + "-" + s[8..10];
    var time := s[11..13] + ":" + s[14..16] + ":" + s[17..19];
    assert date == s[..10];
    assert time == s[11..];
    assert s == s[..10] + " " + s[11..];
  }

  // ---------------------------------------------------------------------------
  // The long display form
  // ---------------------------------------------------------------------------

  /** `strftime("%B %-d, %Y")`. */
  function LongDate(dt: DateTime): string
    requires Valid(dt)
  {
    MonthName(dt.month) + " " + NatStr(dt.day) + ", " + Padded(dt.year, 4)
  }

  /** The date shown in a migrated comment: the long form when the date parses, the raw text otherwise. */
  function DisplayDate(date: string): (r: string)
    ensures ParseTimestamp(date).None? ==> r == date
    ensures ParseTimestamp(date).Some? ==>
      var dt := ParseTimestamp(date).value;
      r == MonthName(dt.month) + " " + NatStr(dt.day) + ", " + date[..4]
  {
    match ParseTimestamp(date)
    case Some(dt) =>
      RenderParse(date);
      assert date[..4] == Padded(dt.year, 4);
      LongDate(dt)
    case None => date
  }

  /** The day is printed without zero padding: one or two digits, never starting with `0`. */
  lemma DayUnpadded(dt: DateTime)
    requires Valid(dt)
    ensures 1 <= |NatStr(dt.day)| <= 2
    ensures NatStr(dt.day)[0] != '0'
  {
    if dt.day >= 10 {
      assert NatStr(dt.day) == NatStr(dt.day / 10) + [DigitChar(dt.day % 10)];
    }
  }

  /** The long form determines the calendar date: different dates never display alike. */
  lemma {:induction false} LongDateInjective(a: DateTime, b: DateTime)
    requires Valid(a) && Valid(b)
    requires LongDate(a) == LongDate(b)
    ensures a.year == b.year && a.month == b.month && a.day == b.day
  {
    var ya, yb := " " + Padded(a.year, 4), " " + Padded(b.year, 4);
    var ua, ub := NatStr(a.day) + [','] + ya, NatStr(b.day) + [','] + yb;
    LongDateShape(a);
    LongDateShape(b);
    SplitAtSeparator(MonthName(a.month), ua, MonthName(b.month), ub, ' ');
    MonthNameInjective(a.month, b.month);
    NoCommaInNatStr(a.day);
    NoCommaInNatStr(b.day);
    SplitAtSeparator(NatStr(a.day), ya, NatStr(b.day), yb, ',');
    NatStrInjective(a.day, b.day);
    assert Padded(a.year, 4) == ya[1..] && Padded(b.year, 4) == yb[1..];
    PaddedYearInjective(a.year, b.year);
  }

  /** The long form is the month name, a space, the day, a comma, a space and the year. */
  lemma LongDateShape(dt: DateTime)
    requires Valid(dt)
    ensures LongDate(dt) == MonthName(dt.month) + [' '] + (NatStr(dt.day) + [','] + (" " + Padded(dt.year, 4)))
  {
  }

  /** Two texts split at the first occurrence of a separator absent from both heads have equal heads and tails. */
  lemma SplitAtSeparator(x: string, u: string, y: string, v: string, c: char)
    requires c !in x && c !in y
    requires x + [c] + u == y + [c] + v
    ensures x == y && u == v
  {
    var s := x + [c] + u;
    assert s[|x|] == c && s[|y|] == c;
    assert forall i :: 0 <= i < |x| ==> s[i] == x[i];
    assert forall i :: 0 <= i < |y| ==> s[i] == y[i];
    assert |x| == |y|;
    assert x == s[..|x|] && y == s[..|y|];
    assert u == s[|x| + 1..] && v == s[|y| + 1..];
  }

  lemma NoCommaInNatStr(n: nat)
    ensures ',' !in NatStr(n)
  {
    var r := NatStr(n);
    assert forall i :: 0 <= i < |r| ==> r[i] != ',' by {
      forall i | 0 <= i < |r| ensures r[i] != ',' {
        assert IsDigit(r[i]);
      }
    }
  }

  /** Four-digit years read back as themselves. */
  lemma PaddedYearInjective(x: nat, y: nat)
    requires 1 <= x <= 9999 && 1 <= y <= 9999
    requires Padded(x, 4) == Padded(y, 4)
    ensures x == y
  {
    assert Pow10(4) == 10000 by {
      assert Pow10(1) == 10 && Pow10(2) == 100 && Pow10(3) == 1000;
    }
    PaddedValue(x, 4);
    PaddedValue(y, 4);
  }

  /** A timestamp spelled out character by character is well formed and reads back its digits. */
  lemma TimestampChars(y0: char, y1: char, y2: char, y3: char, m0: char, m1: char, d0: char, d1: char,
                       h0: char, h1: char, n0: char, n1: char, c0: char, c1: char)
    requires IsDigit(y0) && IsDigit(y1) && IsDigit(y2) && IsDigit(y3)
    requires IsDigit(m0) && IsDigit(m1) && IsDigit(d0) && IsDigit(d1)
    requires IsDigit(h0) && IsDigit(h1) && IsDigit(n0) && IsDigit(n1) && IsDigit(c0) && IsDigit(c1)
    ensures WellFormed([y0, y1, y2, y3, '-', m0, m1, '-', d0, d1, ' ', h0, h1, ':', n0, n1, ':', c0, c1])
    ensures Fields([y0, y1, y2, y3, '-', m0, m1, '-', d0, d1, ' ', h0, h1, ':', n0, n1, ':', c0, c1]) == DateTime(
      1000 * DigitValue(y0) + 100 * DigitValue(y1) + 10 * DigitValue(y2) + DigitValue(y3),
      10 * DigitValue(m0) + DigitValue(m1), 10 * DigitValue(d0) + DigitValue(d1),
      10 * DigitValue(h0) + DigitValue(h1), 10 * DigitValue(n0) + DigitValue(n1),
      10 * DigitValue(c0) + DigitValue(c1))
  {
    var s := [y0, y1, y2, y3, '-', m0, m1, '-', d0, d1, ' ', h0, h1, ':', n0, n1, ':', c0, c1];
    assert WellFormed(s);
    assert s[0..4] == [y0, y1, y2, y3];
    DigitsValue4(y0, y1, y2, y3);
    assert s[5..7] == [m0, m1];
    DigitsValue2(m0, m1);
    assert s[8..10] == [d0, d1];
    DigitsValue2(d0, d1);
    assert s[11..13] == [h0, h1];
    DigitsValue2(h0, h1);
    assert s[14..16] == [n0, n1];
    DigitsValue2(n0, n1);
    assert s[17..19] == [c0, c1];
    DigitsValue2(c0, c1);
  }

  /** An ordinary comment date is shown in the long form, the day unpadded. */
  lemma DisplayDateOrdinary()
    ensures DisplayDate("2019-03-05 14:22:01") == "March 5, 2019"
  {
    var s := "2019-03-05 14:22:01";
    OrdinaryParses();
    assert MonthName(3) == "March";
    assert NatStr(5) == "5";
    assert s[..4] == "2019";
    assert "March" + " " + "5" + ", " + "2019" == "March 5, 2019";
  }

  /** The leap day of a leap year is a valid date. */
  lemma DisplayDateLeapDay()
    ensures DisplayDate("2024-02-29 00:00:00") == "February 29, 2024"
  {
    var s := "2024-02-29 00:00:00";
    LeapDayParses();
    assert MonthName(2) == "February";
    assert NatStr(29) == "29";
    assert s[..4] == "2024";
    assert "February" + " " + "29" + ", " + "2024" == "February 29, 2024";
  }

  lemma OrdinaryParses()
    ensures ParseTimestamp("2019-03-05 14:22:01") == Some(DateTime(2019, 3, 5, 14, 22, 1))
  {
    TimestampChars('2', '0', '1', '9', '0', '3', '0', '5', '1', '4', '2', '2', '0', '1');
  }

  lemma LeapDayParses()
    ensures ParseTimestamp("2024-02-29 00:00:00") == Some(DateTime(2024, 2, 29, 0, 0, 0))
  {
    TimestampChars('2', '0', '2', '4', '0', '2', '2', '9', '0', '0', '0', '0', '0', '0');
  }

  /** The leap day of a common year does not parse, so the raw text is kept. */
  lemma DisplayDateImpossibleDay()
    ensures DisplayDate("2023-02-29 00:00:00") == "2023-02-29 00:00:00"
  {
    TimestampChars('2', '0', '2', '3', '0', '2', '2', '9', '0', '0', '0', '0', '0', '0');
    assert !LeapYear(2023);
  }

  // ---------------------------------------------------------------------------
  // Comment body and discussion title
  // ---------------------------------------------------------------------------

  const Footer: string := "\n\n---\n*Migrated from WordPress comments*"

  /** The line above a comment: bold author, middle dot, italic date, blank line. */
  function Header(c: Export.Comment): string {
    "**" + c.author + "** \U{00B7} *" + DisplayDate(c.date) + "*\n\n"
  }

  /** `format_comment`: the header, the comment text without surrounding whitespace, and the provenance footer. */
  function FormatComment(c: Export.Comment): string {
    Header(c) + Strip(c.content) + Footer
  }

  /**
   * The layout of a formatted comment: the header, then the comment text
   * unchanged apart from whitespace removed at both ends, then the footer.
   */
  lemma FormatCommentLayout(c: Export.Comment)
    ensures var r := FormatComment(c);
      && |r| == |Header(c)| + |Strip(c.content)| + |Footer|
      && r[..|Header(c)|] == Header(c)
      && r[|r| - |Footer|..] == Footer
      && Trimmed(r[|Header(c)|..|r| - |Footer|])
      && SurroundedBySpace(c.content, r[|Header(c)|..|r| - |Footer|], SkipSpace(c.content, 0))
  {
    var r := FormatComment(c);
    assert r[|Header(c)|..|r| - |Footer|] == Strip(c.content);
  }

  /** Whitespace around a comment's text does not change the rendered comment. */
  lemma FormatIgnoresPadding(c: Export.Comment, pre: string, post: string)
    requires AllSpace(pre) && AllSpace(post) && Trimmed(c.content)
    ensures FormatComment(c.(content := pre + c.content + post)) == FormatComment(c)
  {
    StripUnique(pre, c.content, post);
    StripUnique("", c.content, "");
    assert "" + c.content + "" == c.content;
  }

  /** `discussion_title_for_post`: the page path the comment widget maps to a discussion. */
  function DiscussionTitle(slug: string): string {
    "/posts/" + slug + "/"
  }

  /** The title is `/posts/`, the slug, and a closing `/`. */
  lemma DiscussionTitleLayout(slug: string)
    ensures var r := DiscussionTitle(slug);
      |r| == |slug| + 8 && r[..7] == "/posts/" && r[7..|r| - 1] == slug && r[|r| - 1] == '/'
  {
  }

  /** Distinct slugs get distinct discussion titles. */
  lemma DiscussionTitleInjective(a: string, b: string)
    requires DiscussionTitle(a) == DiscussionTitle(b)
    ensures a == b
  {
    DiscussionTitleLayout(a);
    DiscussionTitleLayout(b);
  }
}

=== FILE: commentmigration.dfy ===
/**
 * The comment migrator's entry point (migrate_comments.py, `main`) as a
 * trace of the actions it takes: the lines a dry run announces and the
 * requests the live path sends. The remote side is represented by the answer
 * to the repository query (repository id and discussion categories); a
 * discussion created by the run is referred to by its position among the
 * discussions the run created, standing in for the opaque id the API
 * returns.
 */
module CommentMigration {
  import opened Results
  import Export
  import CommentFormat
  import Discussions

  datatype Step =
    | WouldCreate(title: string)
    | WouldComment(author: string, date: string)
    | QueryRepository(owner: string, name: string)
    | CreateDiscussion(repositoryId: string, categoryId: string, title: string, about: string)
    | AddComment(discussion: nat, body: string)
  {
    /** A request to the discussion platform, as opposed to a dry-run announcement. */
    predicate Remote() {
      QueryRepository? || CreateDiscussion? || AddComment?
    }

    /**
     * The text a creation or comment request sends. A created discussion's
     * body is fixed text around the title of the post it is `about`.
     */
    function Text(): string
      requires CreateDiscussion? || AddComment?
    {
      if CreateDiscussion? then DiscussionBody(about) else body
    }
  }

  datatype Config = Config(repo: string, category: string, dryRun: bool)

  /** What the repository query answers. */
  datatype RepositoryInfo = RepositoryInfo(id: string, categories: seq<Discussions.Category>)

  datatype RunError = BadRepo | CategoryMissing(error: Discussions.CategoryError)

  datatype Run = Run(steps: seq<Step>, migrated: nat, error: Option<RunError>)

  /** The body of the discussion opened for a post. */
  function DiscussionBody(title: string): string {
    "Comments migrated from the original WordPress post: **" + title + "**\n\n"
      + "*(This discussion was created automatically to preserve comments from the WordPress migration.)*"
  }

  function TotalComments(posts: seq<Export.Post>): nat {
    if |posts| == 0 then 0 else |posts[0].comments| + TotalComments(posts[1..])
  }

  // ---------------------------------------------------------------------------
  // The two paths
  // ---------------------------------------------------------------------------

  function AnnounceComments(cs: seq<Export.Comment>): (r: seq<Step>)
    ensures |r| == |cs|
  {
    if |cs| == 0 then [] else [WouldComment(cs[0].author, cs[0].date)] + AnnounceComments(cs[1..])
  }

  /** The dry run: one announced discussion per post, followed by one line per comment. */
  function DryRunSteps(posts: seq<Export.Post>): seq<Step> {
    if |posts| == 0 then []
    else
      [WouldCreate(CommentFormat.DiscussionTitle(posts[0].slug))]
        + AnnounceComments(posts[0].comments) + DryRunSteps(posts[1..])
  }

  /** One request per formatted comment, all to the same discussion. */
  function PostComments(bodies: seq<string>, discussion: nat): (r: seq<Step>)
    ensures |r| == |bodies|
  {
    if |bodies| == 0 then [] else [AddComment(discussion, bodies[0])] + PostComments(bodies[1..], discussion)
  }

  /**
   * What the live path sends for one post: the title of the discussion to
   * open, the post title its body names, and the comments to add to it.
   */
  datatype Thread = Thread(title: string, about: string, comments: seq<string>)

  function ThreadFor(p: Export.Post): Thread {
    Thread(CommentFormat.DiscussionTitle(p.slug), p.title, Formatted(p.comments))
  }

  function Threads(posts: seq<Export.Post>): (r: seq<Thread>)
    ensures |r| == |posts|
  {
    if |posts| == 0 then [] else [ThreadFor(posts[0])] + Threads(posts[1..])
  }

  /**
   * The live path after the category is known: for each thread, a discussion
   * is created and then each of its comments is added to it, in order.
   * `next` is the position of the next discussion the run creates.
   */
  function LiveSteps(threads: seq<Thread>, repositoryId: string, categoryId: string, next: nat): seq<Step>
    decreases |threads|
  {
    if |threads| == 0 then []
    else
      [CreateDiscussion(repositoryId, categoryId, threads[0].title, threads[0].about)]
        + PostComments(threads[0].comments, next)
        + LiveSteps(threads[1..], repositoryId, categoryId, next + 1)
  }

  // ---------------------------------------------------------------------------
  // Shape of the two paths
  // ---------------------------------------------------------------------------

  lemma {:induction false} AnnounceCommentsOnly(cs: seq<Export.Comment>)
    ensures forall s :: s in AnnounceComments(cs) ==> s.WouldComment?
  {
    if |cs| > 0 {
      AnnounceCommentsOnly(cs[1..]);
    }
  }

  /** A dry run announces one line per post and one per comment, and sends no request. */
  lemma {:induction false} DryRunStepsShape(posts: seq<Export.Post>)
    ensures |DryRunSteps(posts)| == |posts| + TotalComments(posts)
    ensures forall s :: s in DryRunSteps(posts) ==> !s.Remote()
  {
    if |posts| > 0 {
      DryRunStepsShape(posts[1..]);
      AnnounceCommentsOnly(posts[0].comments);
    }
  }

  lemma {:induction false} PostCommentsTo(bodies: seq<string>, discussion: nat)
    ensures forall s :: s in PostComments(bodies, discussion) ==> s.AddComment? && s.discussion == discussion
  {
    if |bodies| > 0 {
      PostCommentsTo(bodies[1..], discussion);
    }
  }

  /**
   * The live loop sends one creation per thread and one request per comment;
   * every creation goes to the given repository and category, and every
   * comment to one of the discussions this loop creates.
   */
  lemma {:induction false} LiveStepsShape(threads: seq<Thread>, repositoryId: string, categoryId: string, next: nat)
    ensures |LiveSteps(threads, repositoryId, categoryId, next)| == |threads| + |ThreadComments(threads)|
    ensures forall s :: s in LiveSteps(threads, repositoryId, categoryId, next) ==>
      || (s.CreateDiscussion? && s.repositoryId == repositoryId && s.categoryId == categoryId)
      || (s.AddComment? && next <= s.discussion < next + |threads|)
    decreases |threads|
  {
    if |threads| > 0 {
      LiveStepsShape(threads[1..], repositoryId, categoryId, next + 1);
      PostCommentsTo(threads[0].comments, next);
    }
  }
  /**
   * Every comment request goes to the discussion created last before it:
   * counting the creations before it, from discussion `next` on, reaches
   * exactly its own discussion.
   */
  predicate AddsFollowCreation(steps: seq<Step>, next: nat) {
    forall j :: 0 <= j < |steps| && steps[j].AddComment? ==>
      |CreatedTitles(steps[..j])| + next == steps[j].discussion + 1
  }

  /**
   * The live loop creates each discussion and then adds its comments, before
   * moving on to the next post: no comment precedes its discussion or is
   * added to an earlier one.
   */
  lemma {:induction false} LiveStepsOrdered(threads: seq<Thread>, repositoryId: string, categoryId: string, next: nat)
    ensures AddsFollowCreation(LiveSteps(threads, repositoryId, categoryId, next), next)
    decreases |threads|
  {
    if |threads| > 0 {
      LiveStepsUnfold(threads, repositoryId, categoryId, next);
      LiveStepsOrdered(threads[1..], repositoryId, categoryId, next + 1);
      PostCommentsTo(threads[0].comments, next);
      OrderedCons(
        CreateDiscussion(repositoryId, categoryId, threads[0].title, threads[0].about),
        PostComments(threads[0].comments, next),
        LiveSteps(threads[1..], repositoryId, categoryId, next + 1),
        next);
    }
  }

  /** A creation followed by comments to it keeps the order of the trace after them. */
  lemma OrderedCons(create: Step, cs: seq<Step>, tail: seq<Step>, next: nat)
    requires create.CreateDiscussion?
    requires forall s :: s in cs ==> s.AddComment? && s.discussion == next
    requires AddsFollowCreation(tail, next + 1)
    ensures AddsFollowCreation([create] + (cs + tail), next)
  {
    var steps := [create] + (cs + tail);
    assert CreatedTitles([create]) == [create.title];
    forall j | 0 <= j < |steps| && steps[j].AddComment?
      ensures |CreatedTitles(steps[..j])| + next == steps[j].discussion + 1
    {
      if 1 <= j <= |cs| {
        assert steps[j] == cs[j - 1];
        assert steps[..j] == [create] + cs[..j - 1];
        CreatedTitlesAppend([create], cs[..j - 1]);
        NoCreation(cs[..j - 1]);
      } else if j > |cs| {
        var m := j - 1 - |cs|;
        assert steps[j] == tail[m];
        assert steps[..j] == [create] + (cs + tail[..m]);
        CreatedTitlesAppend([create], cs + tail[..m]);
        CreatedTitlesAppend(cs, tail[..m]);
        NoCreation(cs);
      }
    }
  }

  /** Comment requests create no discussion. */
  lemma {:induction false} NoCreation(cs: seq<Step>)
    requires forall s :: s in cs ==> s.AddComment?
    ensures CreatedTitles(cs) == []
  {
    if |cs| > 0 {
      assert cs[0] in cs;
      NoCreation(cs[1..]);
    }
  }

  /** A step that neither creates nor comments keeps the order of the trace after it. */
  lemma OrderedSkip(query: Step, rest: seq<Step>, next: nat)
    requires query.QueryRepository?
    requires AddsFollowCreation(rest, next)
    ensures AddsFollowCreation([query] + rest, next)
  {
    var steps := [query] + rest;
    forall j | 0 <= j < |steps| && steps[j].AddComment?
      ensures |CreatedTitles(steps[..j])| + next == steps[j].discussion + 1
    {
      if j > 0 {
        assert steps[j] == rest[j - 1];
        assert steps[..j] == [query] + rest[..j - 1];
        CreatedTitlesAppend([query], rest[..j - 1]);
        assert CreatedTitles([query]) == [];
      }
    }
  }


  /**
   * `main` after argument parsing: split `owner/name`, read the export, stop
   * when nothing is to be migrated, announce in a dry run, otherwise query the
   * repository, resolve the category and migrate every comment.
   */
  function Main(cfg: Config, items: seq<Export.Item>, repo: RepositoryInfo): (r: Run)
    ensures r.error.None? && |r.steps| > 0 && !cfg.dryRun ==> r.steps[0].QueryRepository?
    ensures r.error == Some(BadRepo) <==> '/' !in cfg.repo
    ensures r.error.Some? && r.error.value.CategoryMissing? <==>
      && '/' in cfg.repo && !cfg.dryRun && |Export.ParseExport(Export.AsWritten, items)| > 0
      && Discussions.ResolveCategory(repo.categories, cfg.category).Err?
  {
    match Discussions.SplitRepo(cfg.repo)
    case Err(_) => Run([], 0, Some(BadRepo))
    case Ok((owner, name)) =>
      var posts := Export.ParseExport(Export.AsWritten, items);
      if |posts| == 0 then Run([], 0, None)
      else if cfg.dryRun then Run(DryRunSteps(posts), 0, None)
      else
        var query := [QueryRepository(owner, name)];
        match Discussions.ResolveCategory(repo.categories, cfg.category)
        case Err(e) => Run(query, 0, Some(CategoryMissing(e)))
        case Ok(categoryId) =>
          Run(query + LiveSteps(Threads(posts), repo.id, categoryId, 0), TotalComments(posts), None)
  }

  // ---------------------------------------------------------------------------
  // Views of a trace
  // ---------------------------------------------------------------------------

  /** The requests in a trace. */
  function Requests(steps: seq<Step>): seq<Step> {
    if |steps| == 0 then []
    else (if steps[0].Remote() then [steps[0]] else []) + Requests(steps[1..])
  }

  lemma {:induction false} RequestsAppend(a: seq<Step>, b: seq<Step>)
    ensures Requests(a + b) == Requests(a) + Requests(b)
  {
    if |a| == 0 {
      assert a + b == b;
    } else {
      assert (a + b)[0] == a[0];
      assert (a + b)[1..] == a[1..] + b;
      RequestsAppend(a[1..], b);
      var h := if a[0].Remote() then [a[0]] else [];
      assert Requests(a + b) == h + (Requests(a[1..]) + Requests(b));
      assert Requests(a) == h + Requests(a[1..]);
    }
  }

  /** The titles of the discussions a trace creates, in order. */
  function CreatedTitles(steps: seq<Step>): seq<string> {
    if |steps| == 0 then []
    else (if steps[0].CreateDiscussion? then [steps[0].title] else []) + CreatedTitles(steps[1..])
  }

  lemma {:induction false} CreatedTitlesAppend(a: seq<Step>, b: seq<Step>)
    ensures CreatedTitles(a + b) == CreatedTitles(a) + CreatedTitles(b)
  {
    if |a| == 0 {
      assert a + b == b;
    } else {
      assert (a + b)[0] == a[0];
      assert (a + b)[1..] == a[1..] + b;
      CreatedTitlesAppend(a[1..], b);
      var h := if a[0].CreateDiscussion? then [a[0].title] else [];
      assert CreatedTitles(a + b) == h + (CreatedTitles(a[1..]) + CreatedTitles(b));
      assert CreatedTitles(a) == h + CreatedTitles(a[1..]);
    }
  }

  /** The bodies of all comments a trace adds, in order. */
  function AddedComments(steps: seq<Step>): seq<string> {
    if |steps| == 0 then []
    else (if steps[0].AddComment? then [steps[0].body] else []) + AddedComments(steps[1..])
  }

  lemma {:induction false} AddedCommentsAppend(a: seq<Step>, b: seq<Step>)
    ensures AddedComments(a + b) == AddedComments(a) + AddedComments(b)
  {
    if |a| == 0 {
      assert a + b == b;
    } else {
      assert (a + b)[0] == a[0];
      assert (a + b)[1..] == a[1..] + b;
      AddedCommentsAppend(a[1..], b);
      var h := if a[0].AddComment? then [a[0].body] else [];
      assert AddedComments(a + b) == h + (AddedComments(a[1..]) + AddedComments(b));
      assert AddedComments(a) == h + AddedComments(a[1..]);
    }
  }

  /** The titles of the discussions a dry run announces, in order. */
  function AnnouncedTitles(steps: seq<Step>): seq<string> {
    if |steps| == 0 then []
    else (if steps[0].WouldCreate? then [steps[0].title] else []) + AnnouncedTitles(steps[1..])
  }

  lemma {:induction false} AnnouncedTitlesAppend(a: seq<Step>, b: seq<Step>)
    ensures AnnouncedTitles(a + b) == AnnouncedTitles(a) + AnnouncedTitles(b)
  {
    if |a| == 0 {
      assert a + b == b;
    } else {
      assert (a + b)[0] == a[0];
      assert (a + b)[1..] == a[1..] + b;
      AnnouncedTitlesAppend(a[1..], b);
      var h := if a[0].WouldCreate? then [a[0].title] else [];
      assert AnnouncedTitles(a + b) == h + (AnnouncedTitles(a[1..]) + AnnouncedTitles(b));
      assert AnnouncedTitles(a) == h + AnnouncedTitles(a[1..]);
    }
  }

  /** The comment lines a dry run announces, in order. */
  function AnnouncedComments(steps: seq<Step>): seq<Step> {
    if |steps| == 0 then []
    else (if steps[0].WouldComment? then [steps[0]] else []) + AnnouncedComments(steps[1..])
  }

  lemma {:induction false} AnnouncedCommentsAppend(a: seq<Step>, b: seq<Step>)
    ensures AnnouncedComments(a + b) == AnnouncedComments(a) + AnnouncedComments(b)
  {
    if |a| == 0 {
      assert a + b == b;
    } else {
      assert (a + b)[0] == a[0];
      assert (a + b)[1..] == a[1..] + b;
      AnnouncedCommentsAppend(a[1..], b);
      var h := if a[0].WouldComment? then [a[0]] else [];
      assert AnnouncedComments(a + b) == h + (AnnouncedComments(a[1..]) + AnnouncedComments(b));
      assert AnnouncedComments(a) == h + AnnouncedComments(a[1..]);
    }
  }

  /** The bodies of the comments a trace adds to discussion `k`, in order. */
  function AddedTo(steps: seq<Step>, k: nat): seq<string> {
    if |steps| == 0 then []
    else (if steps[0].AddComment? && steps[0].discussion == k then [steps[0].body] else []) + AddedTo(steps[1..], k)
  }

  lemma {:induction false} AddedToAppend(a: seq<Step>, b: seq<Step>, k: nat)
    ensures AddedTo(a + b, k) == AddedTo(a, k) + AddedTo(b, k)
  {
    if |a| == 0 {
      assert a + b == b;
    } else {
      assert (a + b)[1..] == a[1..] + b;
      AddedToAppend(a[1..], b, k);
    }
  }

  /** The discussion titles, one per post, in order. */
  function Titles(posts: seq<Export.Post>): (r: seq<string>)
    ensures |r| == |posts|
  {
    if |posts| == 0 then [] else [CommentFormat.DiscussionTitle(posts[0].slug)] + Titles(posts[1..])
  }

  /** A post's comments as the discussion receives them. */
  function Formatted(cs: seq<Export.Comment>): (r: seq<string>)
    ensures |r| == |cs|
  {
    if |cs| == 0 then [] else [CommentFormat.FormatComment(cs[0])] + Formatted(cs[1..])
  }

  /** Every comment of every post, formatted, in source order. */
  function AllFormatted(posts: seq<Export.Post>): (r: seq<string>)
    ensures |r| == TotalComments(posts)
  {
    if |posts| == 0 then [] else Formatted(posts[0].comments) + AllFormatted(posts[1..])
  }

  lemma {:induction false} AnnounceCommentsViews(cs: seq<Export.Comment>)
    ensures Requests(AnnounceComments(cs)) == []
    ensures AnnouncedTitles(AnnounceComments(cs)) == []
    ensures |AnnouncedComments(AnnounceComments(cs))| == |cs|
  {
    if |cs| > 0 {
      AnnounceCommentsViews(cs[1..]);
      assert AnnounceComments(cs)[1..] == AnnounceComments(cs[1..]);
    }
  }

  lemma {:induction false} PostCommentsViews(bodies: seq<string>, d: nat, k: nat)
    ensures |Requests(PostComments(bodies, d))| == |bodies|
    ensures CreatedTitles(PostComments(bodies, d)) == []
    ensures AddedComments(PostComments(bodies, d)) == bodies
    ensures AddedTo(PostComments(bodies, d), k) == if k == d then bodies else []
  {
    if |bodies| > 0 {
      var first := [AddComment(d, bodies[0])];
      var rest := PostComments(bodies[1..], d);
      PostCommentsCons(bodies, d);
      PostCommentsViews(bodies[1..], d, k);
      RequestsAppend(first, rest);
      CreatedTitlesAppend(first, rest);
      AddedCommentsAppend(first, rest);
      AddedToAppend(first, rest, k);
      assert first[1..] == [];
      assert Requests(first) == first;
      assert CreatedTitles(first) == [];
      assert AddedComments(first) == [bodies[0]];
      assert AddedTo(first, k) == if k == d then [bodies[0]] else [];
      assert bodies == [bodies[0]] + bodies[1..];
    }
  }

  lemma PostCommentsCons(bodies: seq<string>, d: nat)
    requires |bodies| > 0
    ensures PostComments(bodies, d) == [AddComment(d, bodies[0])] + PostComments(bodies[1..], d)
  {
  }

  lemma DryRunStepsCons(posts: seq<Export.Post>)
    requires |posts| > 0
    ensures DryRunSteps(posts)
      == [WouldCreate(CommentFormat.DiscussionTitle(posts[0].slug))]
         + (AnnounceComments(posts[0].comments) + DryRunSteps(posts[1..]))
  {
  }

  lemma TitlesCons(posts: seq<Export.Post>)
    requires |posts| > 0
    ensures Titles(posts) == [CommentFormat.DiscussionTitle(posts[0].slug)] + Titles(posts[1..])
  {
    assert Titles(posts)[1..] == Titles(posts[1..]);
  }

  // ---------------------------------------------------------------------------
  // Properties of the two paths
  // ---------------------------------------------------------------------------

  /**
   * A dry run sends nothing to the discussion platform; it announces one
   * discussion per post, titled by the post's slug, and one line per comment.
   */
  lemma {:induction false} DryRunViews(posts: seq<Export.Post>)
    ensures Requests(DryRunSteps(posts)) == []
    ensures AnnouncedTitles(DryRunSteps(posts)) == Titles(posts)
    ensures |AnnouncedComments(DryRunSteps(posts))| == TotalComments(posts)
  {
    if |posts| > 0 {
      var head := [WouldCreate(CommentFormat.DiscussionTitle(posts[0].slug))];
      var cs := AnnounceComments(posts[0].comments);
      var tail := DryRunSteps(posts[1..]);
      DryRunStepsCons(posts);
      DryRunViews(posts[1..]);
      AnnounceCommentsViews(posts[0].comments);
      RequestsAppend(head, cs + tail);
      AnnouncedTitlesAppend(head, cs + tail);
      AnnouncedCommentsAppend(head, cs + tail);
      RequestsAppend(cs, tail);
      AnnouncedTitlesAppend(cs, tail);
      AnnouncedCommentsAppend(cs, tail);
      assert head[1..] == [];
      assert Requests(head) == [];
      assert AnnouncedTitles(head) == [CommentFormat.DiscussionTitle(posts[0].slug)];
      assert AnnouncedComments(head) == [];
      TitlesCons(posts);
    }
  }

  /** The titles of the threads, in order. */
  function ThreadTitles(threads: seq<Thread>): (r: seq<string>)
    ensures |r| == |threads|
  {
    if |threads| == 0 then [] else [threads[0].title] + ThreadTitles(threads[1..])
  }

  /** The comments of all threads, in order. */
  function ThreadComments(threads: seq<Thread>): seq<string> {
    if |threads| == 0 then [] else threads[0].comments + ThreadComments(threads[1..])
  }

  /** Thread `i` is made from post `i`. */
  lemma {:induction false} ThreadsAt(posts: seq<Export.Post>, i: nat)
    requires i < |posts|
    ensures Threads(posts)[i] == ThreadFor(posts[i])
  {
    if i > 0 {
      ThreadsAt(posts[1..], i - 1);
      assert Threads(posts)[i] == Threads(posts[1..])[i - 1];
    }
  }

  /** The threads are titled by their posts' slugs. */
  lemma {:induction false} ThreadsTitles(posts: seq<Export.Post>)
    ensures ThreadTitles(Threads(posts)) == Titles(posts)
  {
    if |posts| > 0 {
      ThreadsTitles(posts[1..]);
      assert Threads(posts)[1..] == Threads(posts[1..]);
    }
  }

  /** The threads carry every comment of every post, formatted, in source order. */
  lemma {:induction false} ThreadsComments(posts: seq<Export.Post>)
    ensures ThreadComments(Threads(posts)) == AllFormatted(posts)
  {
    if |posts| > 0 {
      ThreadsComments(posts[1..]);
      assert Threads(posts)[1..] == Threads(posts[1..]);
    }
  }

  /** The first step of a thread's block in the live path, and the rest of the block. */
  lemma LiveStepsUnfold(threads: seq<Thread>, repositoryId: string, categoryId: string, next: nat)
    requires |threads| > 0
    ensures LiveSteps(threads, repositoryId, categoryId, next)
      == [CreateDiscussion(repositoryId, categoryId, threads[0].title, threads[0].about)]
         + (PostComments(threads[0].comments, next) + LiveSteps(threads[1..], repositoryId, categoryId, next + 1))
  {
  }

  /** The live path creates one discussion per thread, under the thread's title, in order. */
  lemma {:induction false} LiveTitles(threads: seq<Thread>, repositoryId: string, categoryId: string, next: nat)
    ensures CreatedTitles(LiveSteps(threads, repositoryId, categoryId, next)) == ThreadTitles(threads)
    decreases |threads|
  {
    if |threads| > 0 {
      var head := [CreateDiscussion(repositoryId, categoryId, threads[0].title, threads[0].about)];
      var cs := PostComments(threads[0].comments, next);
      var tail := LiveSteps(threads[1..], repositoryId, categoryId, next + 1);
      LiveStepsUnfold(threads, repositoryId, categoryId, next);
      LiveTitles(threads[1..], repositoryId, categoryId, next + 1);
      PostCommentsViews(threads[0].comments, next, next);
      CreatedTitlesAppend(head, cs + tail);
      CreatedTitlesAppend(cs, tail);
      assert head[1..] == [];
      assert CreatedTitles(head) == [threads[0].title];
    }
  }

  /** The live path adds every comment of every thread in order, and sends one request per discussion and per comment. */
  lemma {:induction false} LiveComments(threads: seq<Thread>, repositoryId: string, categoryId: string, next: nat)
    ensures AddedComments(LiveSteps(threads, repositoryId, categoryId, next)) == ThreadComments(threads)
    ensures |Requests(LiveSteps(threads, repositoryId, categoryId, next))| == |threads| + |ThreadComments(threads)|
    decreases |threads|
  {
    if |threads| > 0 {
      var head := [CreateDiscussion(repositoryId, categoryId, threads[0].title, threads[0].about)];
      var cs := PostComments(threads[0].comments, next);
      var tail := LiveSteps(threads[1..], repositoryId, categoryId, next + 1);
      LiveStepsUnfold(threads, repositoryId, categoryId, next);
      LiveComments(threads[1..], repositoryId, categoryId, next + 1);
      PostCommentsViews(threads[0].comments, next, next);
      AddedCommentsAppend(head, cs + tail);
      RequestsAppend(head, cs + tail);
      AddedCommentsAppend(cs, tail);
      RequestsAppend(cs, tail);
      assert head[1..] == [];
      assert AddedComments(head) == [];
      assert Requests(head) == head;
    }
  }

  /** In the live path, discussion `next + i` receives exactly the comments of thread `i`, in order. */
  lemma {:induction false} LiveAddedTo(threads: seq<Thread>, repositoryId: string, categoryId: string, next: nat, k: nat)
    ensures AddedTo(LiveSteps(threads, repositoryId, categoryId, next), k)
         == if next <= k < next + |threads| then threads[k - next].comments else []
    decreases |threads|
  {
    if |threads| > 0 {
      var all := AddedTo(LiveSteps(threads, repositoryId, categoryId, next), k);
      var rest := AddedTo(LiveSteps(threads[1..], repositoryId, categoryId, next + 1), k);
      LiveAddedToFirst(threads, repositoryId, categoryId, next, k);
      LiveAddedTo(threads[1..], repositoryId, categoryId, next + 1, k);
      ThreadCommentsAt(all, rest, threads, next, k);
    }
  }

  /**
   * The bookkeeping step of `LiveAddedTo`: the first thread's comments
   * followed by what the later threads give discussion `k`.
   */
  lemma ThreadCommentsAt(all: seq<string>, rest: seq<string>, threads: seq<Thread>, next: nat, k: nat)
    requires |threads| > 0
    requires all == (if k == next then threads[0].comments else []) + rest
    requires rest == if next + 1 <= k < next + |threads| then threads[1..][k - (next + 1)].comments else []
    ensures all == if next <= k < next + |threads| then threads[k - next].comments else []
  {
    if k == next {
      assert all == threads[0].comments + [];
    } else if next + 1 <= k < next + |threads| {
      assert threads[1..][k - (next + 1)] == threads[k - next];
      assert all == [] + rest;
    } else {
      assert all == [] + [];
    }
  }

  /** The first thread's block adds its comments to discussion `next` and to no other. */
  lemma LiveAddedToFirst(threads: seq<Thread>, repositoryId: string, categoryId: string, next: nat, k: nat)
    requires |threads| > 0
    ensures AddedTo(LiveSteps(threads, repositoryId, categoryId, next), k)
         == (if k == next then threads[0].comments else [])
            + AddedTo(LiveSteps(threads[1..], repositoryId, categoryId, next + 1), k)
  {
    var create := CreateDiscussion(repositoryId, categoryId, threads[0].title, threads[0].about);
    var cs := PostComments(threads[0].comments, next);
    var tail := LiveSteps(threads[1..], repositoryId, categoryId, next + 1);
    LiveStepsUnfold(threads, repositoryId, categoryId, next);
    PostCommentsViews(threads[0].comments, next, k);
    AddedToSkip(create, cs + tail, k);
    AddedToAppend(cs, tail, k);
  }

  /** A step that adds no comment contributes nothing to any discussion. */
  lemma AddedToSkip(s: Step, rest: seq<Step>, k: nat)
    requires !s.AddComment?
    ensures AddedTo([s] + rest, k) == AddedTo(rest, k)
  {
    assert ([s] + rest)[1..] == rest;
  }

  /** A dry run of `main` sends no request at all and reports no migrated comment. */
  lemma MainDryRun(cfg: Config, items: seq<Export.Item>, repo: RepositoryInfo)
    requires cfg.dryRun
    ensures Requests(Main(cfg, items, repo).steps) == []
    ensures Main(cfg, items, repo).migrated == 0
  {
    DryRunViews(Export.ParseExport(Export.AsWritten, items));
  }

  /**
   * A successful live run of `main` queries the repository once, then creates
   * one discussion per parsed post and adds each post's comments to its own
   * discussion in order; the final count equals the comments added.
   */
  lemma MainLive(cfg: Config, items: seq<Export.Item>, repo: RepositoryInfo)
    requires !cfg.dryRun && '/' in cfg.repo
    requires Discussions.ResolveCategory(repo.categories, cfg.category).Ok?
    ensures var r := Main(cfg, items, repo);
      var posts := Export.ParseExport(Export.AsWritten, items);
      && r.error.None?
      && CreatedTitles(r.steps) == Titles(posts)
      && AddedComments(r.steps) == AllFormatted(posts)
      && r.migrated == |AddedComments(r.steps)|
      && (forall i :: 0 <= i < |posts| ==> AddedTo(r.steps, i) == Formatted(posts[i].comments))
      && AddsFollowCreation(r.steps, 0)
  {
    var posts := Export.ParseExport(Export.AsWritten, items);
    if |posts| > 0 {
      var categoryId := Discussions.ResolveCategory(repo.categories, cfg.category).value;
      var threads := Threads(posts);
      MainLiveUnfold(cfg, items, repo);
      var r := Main(cfg, items, repo);
      LiveStepsOrdered(threads, repo.id, categoryId, 0);
      OrderedSkip(r.steps[0], LiveSteps(threads, repo.id, categoryId, 0), 0);
      QueriedLiveViews(r.steps[0], threads, repo.id, categoryId);
      ThreadsTitles(posts);
      ThreadsComments(posts);
      forall i | 0 <= i < |posts|
        ensures AddedTo(r.steps, i) == Formatted(posts[i].comments)
      {
        ThreadsAt(posts, i);
      }
    }
  }

  /** The views of a trace made of one repository query followed by the live path. */
  lemma QueriedLiveViews(query: Step, threads: seq<Thread>, repositoryId: string, categoryId: string)
    requires query.QueryRepository?
    ensures var steps := [query] + LiveSteps(threads, repositoryId, categoryId, 0);
      && CreatedTitles(steps) == ThreadTitles(threads)
      && AddedComments(steps) == ThreadComments(threads)
      && forall i :: 0 <= i < |threads| ==> AddedTo(steps, i) == threads[i].comments
  {
    QueriedTitles(query, threads, repositoryId, categoryId);
    QueriedComments(query, threads, repositoryId, categoryId);
    QueriedAddedTo(query, threads, repositoryId, categoryId);
  }

  lemma QueriedTitles(query: Step, threads: seq<Thread>, repositoryId: string, categoryId: string)
    requires query.QueryRepository?
    ensures CreatedTitles([query] + LiveSteps(threads, repositoryId, categoryId, 0)) == ThreadTitles(threads)
  {
    var live := LiveSteps(threads, repositoryId, categoryId, 0);
    LiveTitles(threads, repositoryId, categoryId, 0);
    CreatedTitlesAppend([query], live);
    assert CreatedTitles([query]) == [];
  }

  lemma QueriedComments(query: Step, threads: seq<Thread>, repositoryId: string, categoryId: string)
    requires query.QueryRepository?
    ensures AddedComments([query] + LiveSteps(threads, repositoryId, categoryId, 0)) == ThreadComments(threads)
  {
    var live := LiveSteps(threads, repositoryId, categoryId, 0);
    LiveComments(threads, repositoryId, categoryId, 0);
    AddedCommentsAppend([query], live);
    assert AddedComments([query]) == [];
  }

  lemma QueriedAddedTo(query: Step, threads: seq<Thread>, repositoryId: string, categoryId: string)
    requires query.QueryRepository?
    ensures forall i :: 0 <= i < |threads| ==>
      AddedTo([query] + LiveSteps(threads, repositoryId, categoryId, 0), i) == threads[i].comments
  {
    forall i | 0 <= i < |threads|
      ensures AddedTo([query] + LiveSteps(threads, repositoryId, categoryId, 0), i) == threads[i].comments
    {
      QueriedAddedToAt(query, threads, repositoryId, categoryId, i);
    }
  }

  lemma QueriedAddedToAt(query: Step, threads: seq<Thread>, repositoryId: string, categoryId: string, i: nat)
    requires query.QueryRepository? && i < |threads|
    ensures AddedTo([query] + LiveSteps(threads, repositoryId, categoryId, 0), i) == threads[i].comments
  {
    LiveAddedTo(threads, repositoryId, categoryId, 0, i);
    AddedToSkip(query, LiveSteps(threads, repositoryId, categoryId, 0), i);
  }

  /** The shape of a live run of `main` that finds its category. */
  lemma MainLiveUnfold(cfg: Config, items: seq<Export.Item>, repo: RepositoryInfo)
    requires !cfg.dryRun && '/' in cfg.repo
    requires Discussions.ResolveCategory(repo.categories, cfg.category).Ok?
    requires |Export.ParseExport(Export.AsWritten, items)| > 0
    ensures var r := Main(cfg, items, repo);
      var posts := Export.ParseExport(Export.AsWritten, items);
      var categoryId := Discussions.ResolveCategory(repo.categories, cfg.category).value;
      && |r.steps| > 0 && r.steps[0].QueryRepository?
      && r.steps == [r.steps[0]] + LiveSteps(Threads(posts), repo.id, categoryId, 0)
      && r.migrated == TotalComments(posts)
      && r.error.None?
  {
  }

  /** When the category cannot be found, only the repository query is sent and nothing is created. */
  lemma MainCategoryMissing(cfg: Config, items: seq<Export.Item>, repo: RepositoryInfo)
    requires !cfg.dryRun && '/' in cfg.repo
    requires |Export.ParseExport(Export.AsWritten, items)| > 0
    requires Discussions.ResolveCategory(repo.categories, cfg.category).Err?
    ensures var r := Main(cfg, items, repo);
      r.error.Some? && r.error.value.CategoryMissing? && r.steps == Requests(r.steps) == [r.steps[0]]
      && r.steps[0].QueryRepository? && CreatedTitles(r.steps) == []
  {
  }
}

=== FILE: discussions.dfy ===
/**
 * The parts of the discussion client that decide something locally
 * (migrate_comments.py, `get_repo_and_category` and the `--repo` split in
 * `main`). The GraphQL requests themselves are remote and are represented by
 * the categories the repository query returns.
 */
module Discussions {
  import opened Results
  import opened Text

  datatype Category = Category(id: string, name: string)

  /** The category lookup failed; the error names every category on offer. */
  datatype CategoryError = CategoryNotFound(requested: string, available: seq<string>)

  /** `c["name"].lower() == category_name.lower()`. */
  predicate NameMatches(c: Category, wanted: string) {
    Lower(c.name) == Lower(wanted)
  }

  function Names(cats: seq<Category>): (r: seq<string>)
    ensures |r| == |cats|
    ensures forall i :: 0 <= i < |cats| ==> r[i] == cats[i].name
  {
    seq(|cats|, i requires 0 <= i < |cats| => cats[i].name)
  }

  /** Index of the first category whose name matches, if any. */
  function FirstMatch(cats: seq<Category>, wanted: string, from: nat): (r: Option<nat>)
    requires from <= |cats|
    ensures r.Some? ==> from <= r.value < |cats| && NameMatches(cats[r.value], wanted)
    ensures r.Some? ==> forall j :: from <= j < r.value ==> !NameMatches(cats[j], wanted)
    ensures r.None? ==> forall j :: from <= j < |cats| ==> !NameMatches(cats[j], wanted)
    decreases |cats| - from
  {
    if from == |cats| then None
    else if NameMatches(cats[from], wanted) then Some(from)
    else FirstMatch(cats, wanted, from + 1)
  }

  /**
   * The category id for `wanted`: the id of the first category whose name
   * equals it ignoring case, or an error listing all category names when
   * none does.
   */
  function ResolveCategory(cats: seq<Category>, wanted: string): (r: Result<string, CategoryError>)
    ensures r.Ok? <==> exists i :: 0 <= i < |cats| && NameMatches(cats[i], wanted)
    ensures r.Ok? ==> exists i :: 0 <= i < |cats| && NameMatches(cats[i], wanted) && cats[i].id == r.value
                        && forall j :: 0 <= j < i ==> !NameMatches(cats[j], wanted)
    ensures r.Err? ==> r.error == CategoryNotFound(wanted, Names(cats))
  {
    match FirstMatch(cats, wanted, 0)
    case Some(i) => Ok(cats[i].id)
    case None => Err(CategoryNotFound(wanted, Names(cats)))
  }

  /** Matching ignores case: names that fold alike resolve alike. */
  lemma ResolveCategoryCaseInsensitive(cats: seq<Category>, a: string, b: string)
    requires Lower(a) == Lower(b)
    ensures ResolveCategory(cats, a).Ok? <==> ResolveCategory(cats, b).Ok?
    ensures ResolveCategory(cats, a).Ok? ==> ResolveCategory(cats, a).value == ResolveCategory(cats, b).value
  {
    assert forall c :: NameMatches(c, a) <==> NameMatches(c, b);
    FirstMatchSame(cats, a, b, 0);
  }

  lemma {:induction false} FirstMatchSame(cats: seq<Category>, a: string, b: string, from: nat)
    requires from <= |cats|
    requires Lower(a) == Lower(b)
    ensures FirstMatch(cats, a, from) == FirstMatch(cats, b, from)
    decreases |cats| - from
  {
    if from < |cats| {
      FirstMatchSame(cats, a, b, from + 1);
    }
  }

  /** A configured `general` finds a repository category named `General`. */
  lemma CaseInsensitiveExample()
    ensures ResolveCategory([Category("DIC_1", "Announcements"), Category("DIC_2", "General")], "general") == Ok("DIC_2")
  {
    var cats := [Category("DIC_1", "Announcements"), Category("DIC_2", "General")];
    assert Lower("General") == "general" == Lower("general");
    assert !NameMatches(cats[0], "general") by {
      assert Lower("Announcements")[0] == 'a' != 'g';
    }
    assert FirstMatch(cats, "general", 1) == Some(1);
  }

  // ---------------------------------------------------------------------------
  // owner/name
  // ---------------------------------------------------------------------------

  datatype RepoError = NoSlash

  /** `owner, name = repo.split("/", 1)`: split at the first slash; without one the unpacking fails. */
  function SplitRepo(repo: string): (r: Result<(string, string), RepoError>)
    ensures r.Err? <==> '/' !in repo
    ensures r.Ok? ==> r.value.0 + "/" + r.value.1 == repo && '/' !in r.value.0
  {
    match Find(repo, "/", 0)
    case None =>
      assert forall k :: 0 <= k < |repo| ==> repo[k] != '/' by {
        forall k | 0 <= k < |repo| ensures repo[k] != '/' {
          assert !OccursAt(repo, "/", k);
          assert repo[k..k + 1] == [repo[k]];
        }
      }
      Err(NoSlash)
    case Some(i) =>
      assert repo[i..i + 1] == "/";
      assert forall k :: 0 <= k < i ==> repo[k] != '/' by {
        forall k | 0 <= k < i ensures repo[k] != '/' {
          assert !OccursAt(repo, "/", k);
          assert repo[k..k + 1] == [repo[k]];
        }
      }
      assert repo == repo[..i] + "/" + repo[i + 1..];
      Ok((repo[..i], repo[i + 1..]))
  }

  /** Joining an owner without a slash to any name and splitting again gives both back. */
  lemma SplitRepoJoin(owner: string, name: string)
    requires '/' !in owner
    ensures SplitRepo(owner + "/" + name) == Ok((owner, name))
  {
    var repo := owner + "/" + name;
    assert repo[|owner|] == '/';
    var r := SplitRepo(repo);
    var (o, n) := r.value;
    assert o == repo[..|o|] == owner;
    assert n == repo[|o| + 1..] == name;
  }
}

=== FILE: export.dfy ===
/**
 * Reading the WordPress export (migrate_comments.py, `parse_wordpress_xml`).
 *
 * The XML parser and its namespace lookups are foreign; an `item` is taken as
 * the result of its `find` calls. A looked-up element is `Some(Element(...))`,
 * an absent one `None`; an element's `text` is `None` when it is empty, and
 * `children` is its number of child elements, which is what Python's
 * truthiness of an ElementTree element depends on.
 */
module Export {
  import opened Results

  datatype Element = Element(text: Option<string>, children: nat)

  datatype CommentElement = CommentElement(
    approved: Option<Element>,
    id: Option<Element>,
    parent: Option<Element>,
    author: Option<Element>,
    date: Option<Element>,
    content: Option<Element>)

  datatype Item = Item(
    postType: Option<Element>,
    status: Option<Element>,
    title: Option<Element>,
    postName: Option<Element>,
    comments: seq<CommentElement>)

  datatype Comment = Comment(id: string, parentId: string, author: string, date: string, content: string, approved: bool)
  datatype Post = Post(title: string, slug: string, comments: seq<Comment>)

  /** The element exists and its text is exactly `s`. */
  predicate TextIs(e: Option<Element>, s: string) {
    e.Some? && e.value.text == Some(s)
  }

  /** An element Python treats as false: missing, or present without child elements. */
  predicate Leaf(e: Option<Element>) {
    e.None? || e.value.children == 0
  }

  /** The element exists and has non-empty text. */
  predicate HasText(e: Option<Element>) {
    e.Some? && e.value.text.Some? && e.value.text.value != ""
  }

  /** Python's `str(x)` of an element's text as an f-string shows it: `None` for no text. */
  function Shown(t: Option<string>): string {
    match t
    case Some(s) => s
    case None => "None"
  }

  // ---------------------------------------------------------------------------
  // Field lookup with defaults
  // ---------------------------------------------------------------------------

  /**
   * `(find(...) or _empty()).text or default` as written: an element with no
   * child elements is falsy in Python, so it is replaced by the empty
   * stand-in just like a missing one.
   */
  function FieldAsWritten(e: Option<Element>, default: string): (r: string)
    ensures (e.None? || e.value.children == 0) ==> r == default
  {
    var text := if e.Some? && e.value.children > 0 then e.value.text else None;
    match text
    case Some(s) => if s == "" then default else s
    case None => default
  }

  /** The lookup as evidently intended: a present element's non-empty text, else the default. */
  function Field(e: Option<Element>, default: string): (r: string)
    ensures e.None? ==> r == default
    ensures e.Some? && e.value.text.Some? && e.value.text.value != "" ==> r == e.value.text.value
    ensures r == default || TextIs(e, r)
  {
    match e
    case None => default
    case Some(el) =>
      match el.text
      case Some(s) => if s == "" then default else s
      case None => default
  }

  /** Which of the two lookups a parse uses: the code's, or the evidently intended one. */
  datatype Lookup = AsWritten | Intended

  function FieldBy(m: Lookup, e: Option<Element>, default: string): string {
    if m.AsWritten? then FieldAsWritten(e, default) else Field(e, default)
  }

  // ---------------------------------------------------------------------------
  // Filtering
  // ---------------------------------------------------------------------------

  /** The approval markers WordPress writes for approved comments. */
  predicate Approved(c: CommentElement) {
    TextIs(c.approved, "1") || TextIs(c.approved, "approve")
  }

  /** A published post, as opposed to a page, attachment or draft. */
  predicate Published(it: Item) {
    TextIs(it.postType, "post") && TextIs(it.status, "publish")
  }

  /** The comment record built from an approved comment element, every field through lookup `m`. */
  function ToComment(m: Lookup, c: CommentElement): (r: Comment)
    ensures r.approved
  {
    Comment(
      FieldBy(m, c.id, ""),
      FieldBy(m, c.parent, "0"),
      FieldBy(m, c.author, "Anonymous"),
      FieldBy(m, c.date, ""),
      FieldBy(m, c.content, ""),
      true)
  }

  /** The approved comments of an item, in document order. */
  function ApprovedComments(m: Lookup, cs: seq<CommentElement>): (r: seq<Comment>)
    ensures |r| <= |cs|
    ensures forall c :: c in r ==> c.approved
  {
    if |cs| == 0 then []
    else (if Approved(cs[0]) then [ToComment(m, cs[0])] else []) + ApprovedComments(m, cs[1..])
  }

  function ToPost(m: Lookup, it: Item): Post {
    Post(
      if it.title.Some? then Shown(it.title.value.text) else "(no title)",
      if it.postName.Some? then Shown(it.postName.value.text) else "",
      ApprovedComments(m, it.comments))
  }

  /** An item contributes a post when it is published and keeps at least one comment. */
  predicate Contributes(m: Lookup, it: Item) {
    Published(it) && |ApprovedComments(m, it.comments)| > 0
  }

  /** `parse_wordpress_xml` over the document's items, in document order. */
  function ParseExport(m: Lookup, items: seq<Item>): (r: seq<Post>)
    ensures |r| <= |items|
    ensures forall p :: p in r ==> |p.comments| > 0
    ensures forall p, c :: p in r && c in p.comments ==> c.approved
  {
    if |items| == 0 then []
    else (if Contributes(m, items[0]) then [ToPost(m, items[0])] else []) + ParseExport(m, items[1..])
  }

  // ---------------------------------------------------------------------------
  // Properties
  // ---------------------------------------------------------------------------

  /** A comment element's approval marker alone decides whether it survives filtering. */
  lemma {:induction false} ApprovedCommentsCount(m: Lookup, cs: seq<CommentElement>)
    ensures |ApprovedComments(m, cs)| > 0 <==> exists i :: 0 <= i < |cs| && Approved(cs[i])
  {
    if |cs| > 0 {
      ApprovedCommentsCount(m, cs[1..]);
      if exists i :: 0 <= i < |cs[1..]| && Approved(cs[1..][i]) {
        var i :| 0 <= i < |cs[1..]| && Approved(cs[1..][i]);
        assert Approved(cs[i + 1]);
      }
      if exists i :: 0 <= i < |cs| && Approved(cs[i]) {
        var i :| 0 <= i < |cs| && Approved(cs[i]);
        if i > 0 {
          assert Approved(cs[1..][i - 1]);
        }
      }
    }
  }

  /**
   * Under the intended lookup each field of a comment is its default or the
   * text of its element; as written, a leaf author element gives `Anonymous`.
   */
  lemma ToCommentFields(m: Lookup, c: CommentElement)
    ensures var r := ToComment(m, c);
      && (m.Intended? ==>
        && (r.id == "" || TextIs(c.id, r.id))
        && (r.parentId == "0" || TextIs(c.parent, r.parentId))
        && (r.author == "Anonymous" || TextIs(c.author, r.author))
        && (r.date == "" || TextIs(c.date, r.date))
        && (r.content == "" || TextIs(c.content, r.content)))
      && (m.AsWritten? && Leaf(c.author) ==> r.author == "Anonymous")
  {
  }

  /**
   * As written, a comment whose fields are all leaf elements (WordPress's own
   * shape) or missing loses every field to its default.
   */
  lemma LeafFieldsLostAsWritten(c: CommentElement)
    requires Leaf(c.id) && Leaf(c.parent) && Leaf(c.author) && Leaf(c.date) && Leaf(c.content)
    ensures ToComment(AsWritten, c) == Comment("", "0", "Anonymous", "", "", true)
  {
  }

  /** As written, a comment's author text is lost even when it is present; the intended lookup keeps it. */
  lemma AuthorLostAsWritten()
    ensures var c := CommentElement(Some(Element(Some("1"), 0)), None, None, Some(Element(Some("Alice"), 0)), None, None);
      && Approved(c)
      && ToComment(AsWritten, c).author == "Anonymous"
      && ToComment(Intended, c).author == "Alice"
  {
  }

  /** With the intended lookup, a field's non-empty text reaches the comment unchanged. */
  lemma IntendedKeepsText(c: CommentElement)
    ensures HasText(c.id) ==> ToComment(Intended, c).id == c.id.value.text.value
    ensures HasText(c.parent) ==> ToComment(Intended, c).parentId == c.parent.value.text.value
    ensures HasText(c.author) ==> ToComment(Intended, c).author == c.author.value.text.value
    ensures HasText(c.date) ==> ToComment(Intended, c).date == c.date.value.text.value
    ensures HasText(c.content) ==> ToComment(Intended, c).content == c.content.value.text.value
  {
  }

  /** Comment filtering distributes over concatenation, so it keeps document order. */
  lemma {:induction false} ApprovedCommentsAppend(m: Lookup, a: seq<CommentElement>, b: seq<CommentElement>)
    ensures ApprovedComments(m, a + b) == ApprovedComments(m, a) + ApprovedComments(m, b)
  {
    if |a| > 0 {
      assert (a + b)[1..] == a[1..] + b;
      ApprovedCommentsAppend(m, a[1..], b);
    } else {
      assert a + b == b;
    }
  }

  /** A single comment element survives if and only if it carries an approval marker. */
  lemma ApprovedCommentsSingle(m: Lookup, c: CommentElement)
    ensures ApprovedComments(m, [c]) == if Approved(c) then [ToComment(m, c)] else []
  {
    assert [c][1..] == [];
  }

  /** Post filtering distributes over concatenation, so it keeps document order. */
  lemma {:induction false} ParseExportAppend(m: Lookup, a: seq<Item>, b: seq<Item>)
    ensures ParseExport(m, a + b) == ParseExport(m, a) + ParseExport(m, b)
  {
    if |a| > 0 {
      assert (a + b)[1..] == a[1..] + b;
      ParseExportAppend(m, a[1..], b);
    } else {
      assert a + b == b;
    }
  }

  /** A single item yields its post exactly when it is a published post with an approved comment. */
  lemma ParseExportSingle(m: Lookup, it: Item)
    ensures ParseExport(m, [it]) == if Contributes(m, it) then [ToPost(m, it)] else []
  {
    assert [it][1..] == [];
  }

  /** The number of items that contribute a post. */
  function CountContributing(m: Lookup, items: seq<Item>): nat {
    if |items| == 0 then 0 else (if Contributes(m, items[0]) then 1 else 0) + CountContributing(m, items[1..])
  }

  /** Every contributing item yields one post and no other item yields any. */
  lemma {:induction false} ParseExportCount(m: Lookup, items: seq<Item>)
    ensures |ParseExport(m, items)| == CountContributing(m, items)
  {
    if |items| > 0 {
      ParseExportCount(m, items[1..]);
    }
  }

  /** Items that are not published posts, or whose post type or status is missing, yield nothing. */
  lemma UnpublishedSkipped(m: Lookup, it: Item)
    requires !Published(it)
    ensures ParseExport(m, [it]) == []
  {
    ParseExportSingle(m, it);
  }

  /** A comment whose fields are all missing receives every default. */
  lemma CommentDefaults(m: Lookup, approved: Element)
    ensures ToComment(m, CommentElement(Some(approved), None, None, None, None, None))
         == Comment("", "0", "Anonymous", "", "", true)
  {
  }

  /** A post whose title and slug elements are missing receives the placeholder title and an empty slug. */
  lemma PostDefaults(m: Lookup, it: Item)
    requires it.title.None? && it.postName.None?
    ensures ToPost(m, it).title == "(no title)" && ToPost(m, it).slug == ""
  {
  }

  /** The two lookups yield the same posts, titles, slugs and comment counts: only comment fields differ. */
  lemma {:induction false} LookupsAgreeOnShape(items: seq<Item>)
    ensures var a := ParseExport(AsWritten, items);
      var b := ParseExport(Intended, items);
      && |a| == |b|
      && forall i :: 0 <= i < |a| ==> a[i].title == b[i].title && a[i].slug == b[i].slug && |a[i].comments| == |b[i].comments|
  {
    if |items| > 0 {
      LookupsAgreeOnShape(items[1..]);
      ApprovedCommentsSameLength(items[0].comments);
    }
  }

  lemma {:induction false} ApprovedCommentsSameLength(cs: seq<CommentElement>)
    ensures |ApprovedComments(AsWritten, cs)| == |ApprovedComments(Intended, cs)|
  {
    if |cs| > 0 {
      ApprovedCommentsSameLength(cs[1..]);
    }
  }
}

=== FILE: frontmatter.dfy ===
/**
 * Splitting a post into its frontmatter and its body (migrate.py,
 * `migrate_post`). The opener is the marker at the very start of the file;
 * the closer is the first newline-plus-marker found from index 3 onwards, so
 * the closer need not stand on a line of its own and the body is everything
 * after those four characters. Source posts use `---`; the same split with
 * `+++` reads back the documents the migrator writes.
 */
module Frontmatter {
  import opened Results
  import opened Text

  /** A three-character delimiter line: `---` around YAML, `+++` around TOML. */
  type Marker = m: string | |m| == 3 witness "---"

  const YamlMarker: Marker := "---"
  const TomlMarker: Marker := "+++"

  /** The closing delimiter is searched for with the newline before it. */
  function Closer(m: Marker): string {
    "\n" + m
  }

  datatype SplitError = NoFrontmatter | Unclosed
  datatype Parts = Parts(yaml: string, body: string)

  /** Python `s.startswith(prefix)`. */
  predicate StartsWith(s: string, prefix: string) {
    |prefix| <= |s| && s[..|prefix|] == prefix
  }

  /** The closer does not occur in `raw` anywhere in the index range `[lo, hi)`. */
  predicate NoCloserIn(m: Marker, raw: string, lo: nat, hi: nat) {
    forall k :: lo <= k < hi ==> !OccursAt(raw, Closer(m), k)
  }

  /** The document the split takes apart. */
  function Assemble(m: Marker, p: Parts): string {
    m + p.yaml + Closer(m) + p.body
  }

  /**
   * Split `raw` into frontmatter text and body. A file that does not start
   * with the opener, or in which no closer follows it, is rejected; otherwise
   * the two parts reassemble to `raw` and the frontmatter holds no closer.
   */
  function Split(m: Marker, raw: string): (r: Result<Parts, SplitError>)
    ensures r == Err(NoFrontmatter) <==> !StartsWith(raw, m)
    ensures r == Err(Unclosed) <==> StartsWith(raw, m) && NoCloserIn(m, raw, 3, |raw|)
    ensures r.Ok? ==> Assemble(m, r.value) == raw
    ensures r.Ok? ==> NoCloserIn(m, raw, 3, 3 + |r.value.yaml|)
  {
    if !StartsWith(raw, m) then Err(NoFrontmatter)
    else
      match Find(raw, Closer(m), 3)
      case None => Err(Unclosed)
      case Some(end) =>
        var p := Parts(raw[3..end], raw[end + 4..]);
        assert raw[..3] == m && raw[end..end + 4] == Closer(m);
        assert raw == raw[..3] + raw[3..end] + raw[end..end + 4] + raw[end + 4..];
        Ok(p)
  }

  /**
   * Frontmatter text `yaml` can be carried through the split exactly when the
   * first closer the search meets is the one after it: no closer may start
   * inside `yaml` (including one straddling into the appended closer).
   */
  predicate Splittable(m: Marker, yaml: string) {
    forall k :: 0 <= k < |yaml| ==> !OccursAt(yaml + Closer(m), Closer(m), k)
  }

  /** Where closers sit in an assembled document, relative to its frontmatter. */
  lemma AssembledClosers(m: Marker, p: Parts)
    ensures StartsWith(Assemble(m, p), m)
    ensures OccursAt(Assemble(m, p), Closer(m), 3 + |p.yaml|)
    ensures forall j :: 3 <= j < 3 + |p.yaml| ==>
      (OccursAt(Assemble(m, p), Closer(m), j) <==> OccursAt(p.yaml + Closer(m), Closer(m), j - 3))
  {
    var raw := Assemble(m, p);
    var y := p.yaml;
    assert raw[..3] == m;
    assert raw[3 + |y|..3 + |y| + 4] == Closer(m);
    forall j | 3 <= j < 3 + |y|
      ensures OccursAt(raw, Closer(m), j) <==> OccursAt(y + Closer(m), Closer(m), j - 3)
    {
      assert raw[j..j + 4] == (y + Closer(m))[j - 3..j + 1];
    }
  }

  /** Two documents with the same text and equally long frontmatter have the same parts. */
  lemma SameParts(m: Marker, p: Parts, q: Parts)
    requires Assemble(m, p) == Assemble(m, q) && |p.yaml| == |q.yaml|
    ensures p == q
  {
    var raw := Assemble(m, p);
    assert p.yaml == raw[3..3 + |p.yaml|] == q.yaml;
    assert p.body == raw[3 + |p.yaml| + 4..] == q.body;
  }

  lemma {:induction false} SplitAssembleOk(m: Marker, p: Parts)
    requires Splittable(m, p.yaml)
    ensures Split(m, Assemble(m, p)) == Ok(p)
  {
    var raw := Assemble(m, p);
    AssembledClosers(m, p);
    assert NoCloserIn(m, raw, 3, 3 + |p.yaml|);
    var r := Split(m, raw);
    assert r.Ok?;
    var q := r.value;
    AssembledClosers(m, q);
    SameParts(m, p, q);
  }

  lemma {:induction false} SplitAssembleNotOk(m: Marker, p: Parts)
    requires !Splittable(m, p.yaml)
    ensures Split(m, Assemble(m, p)) != Ok(p)
  {
    var raw := Assemble(m, p);
    AssembledClosers(m, p);
    var k :| 0 <= k < |p.yaml| && OccursAt(p.yaml + Closer(m), Closer(m), k);
    assert OccursAt(raw, Closer(m), 3 + k);
  }

  /** Round trip from parts: splitting an assembled document recovers the parts. */
  lemma SplitAssemble(m: Marker, p: Parts)
    ensures Split(m, Assemble(m, p)) == Ok(p) <==> Splittable(m, p.yaml)
  {
    if Splittable(m, p.yaml) {
      SplitAssembleOk(m, p);
    } else {
      SplitAssembleNotOk(m, p);
    }
  }
}

=== FILE: postmigration.dfy ===
/**
 * The post migrator's main loop (migrate.py, `main`): every discovered post
 * is given an output slug and converted, in discovery order, into an abstract
 * destination. Discovery (the sorted year/month/slug walk that skips
 * `_drafts` and non-directories) is given as the sequence of posts it yields;
 * a missing export root is the run's only fatal error.
 *
 * The loop resolves a post's slug and then migrates it. A post's output slug
 * depends only on the slugs discovered before it (`Slugs.ResolveAllByCount`),
 * so resolving all slugs first and then migrating every post under its slug
 * is the same loop. `Run` does this with the resolver as written
 * (`Slugs.ResolveAll`); `RunUnique` with the corrected one
 * (`Slugs.ResolveAllUnique`).
 */
module PostMigration {
  import opened Results
  import Slugs
  import opened PostWriter

  /**
   * Migrating posts under given slugs: the outcome of every post processed
   * (the migrated ones are the `✓` lines), the number migrated, and whether
   * a crash ended the pass.
   */
  datatype Pass = Pass(dest: Destination, outcomes: seq<Outcome>, migrated: nat, aborted: bool)

  /**
   * A run: the pass over the discovered posts and the collision warnings,
   * which are printed once the loop has finished.
   */
  datatype Summary = Summary(pass: Pass, warnings: seq<Slugs.Collision>)

  datatype RunError = ExportMissing

  /** How many outcomes count as migrated. */
  function MigratedCount(outcomes: seq<Outcome>): (c: nat)
    ensures c <= |outcomes|
  {
    if |outcomes| == 0 then 0
    else (if outcomes[0].Migrated() then 1 else 0) + MigratedCount(outcomes[1..])
  }

  /**
   * Migrate `posts[i]` under `slugs[i]`, in order. A skipped post does not
   * stop the loop; a crash ends it after the crashing post.
   */
  function MigrateUnder(posts: seq<SourcePost>, slugs: seq<string>, dest: Destination, load: string -> Loaded)
    : (r: Pass)
    requires |slugs| == |posts|
    ensures |r.outcomes| <= |posts|
    ensures r.migrated == MigratedCount(r.outcomes)
    ensures !r.aborted ==> |r.outcomes| == |posts|
    ensures forall s :: s in dest && s !in slugs ==> s in r.dest && r.dest[s] == dest[s]
    decreases |posts|
  {
    if |posts| == 0 then Pass(dest, [], 0, false)
    else
      var (outcome, dest') := MigratePost(posts[0], slugs[0], dest, load);
      if outcome.Crashed? then Pass(dest, [Crashed], 0, true)
      else
        var rest := MigrateUnder(posts[1..], slugs[1..], dest', load);
        var outcomes := [outcome] + rest.outcomes;
        assert outcomes[1..] == rest.outcomes;
        Pass(rest.dest, outcomes, rest.migrated + (if outcome.Migrated() then 1 else 0), rest.aborted)
  }

  /** Only a crash ends a pass early, and it is the last outcome: a skipped post does not stop the loop. */
  lemma {:induction false} CrashEndsPass(posts: seq<SourcePost>, slugs: seq<string>, dest: Destination, load: string -> Loaded)
    requires |slugs| == |posts|
    ensures var r := MigrateUnder(posts, slugs, dest, load);
      && (r.aborted ==> |r.outcomes| > 0)
      && forall i :: 0 <= i < |r.outcomes| ==> (r.outcomes[i].Crashed? <==> r.aborted && i == |r.outcomes| - 1)
    decreases |posts|
  {
    if |posts| > 0 {
      var (outcome, dest') := MigratePost(posts[0], slugs[0], dest, load);
      if !outcome.Crashed? {
        CrashEndsPass(posts[1..], slugs[1..], dest', load);
        var rest := MigrateUnder(posts[1..], slugs[1..], dest', load);
        var r := MigrateUnder(posts, slugs, dest, load);
        assert r.outcomes == [outcome] + rest.outcomes;
        forall i | 1 <= i < |r.outcomes|
          ensures r.outcomes[i] == rest.outcomes[i - 1]
        {
        }
      }
    }
  }

  /** A pass only creates the directories it is given slugs for. */
  lemma {:induction false} PassWritesOwnSlugs(posts: seq<SourcePost>, slugs: seq<string>, dest: Destination, load: string -> Loaded)
    requires |slugs| == |posts|
    ensures forall s :: s in MigrateUnder(posts, slugs, dest, load).dest ==> s in dest || s in slugs
    decreases |posts|
  {
    if |posts| > 0 {
      var (outcome, dest') := MigratePost(posts[0], slugs[0], dest, load);
      if !outcome.Crashed? {
        PassWritesOwnSlugs(posts[1..], slugs[1..], dest', load);
        forall s | s in slugs[1..] ensures s in slugs {
          var k :| 0 <= k < |slugs[1..]| && slugs[1..][k] == s;
          assert slugs[k + 1] == s;
        }
        assert slugs[0] in slugs;
      }
    }
  }

  /** A pass never overwrites or removes an image already in the destination. */
  lemma {:induction false} PassKeepsImages(posts: seq<SourcePost>, slugs: seq<string>, dest: Destination, load: string -> Loaded)
    requires |slugs| == |posts|
    ensures var r := MigrateUnder(posts, slugs, dest, load);
      forall s, n :: HasFile(dest, s, n) ==>
        HasFile(r.dest, s, n) && r.dest[s].images.value[n] == dest[s].images.value[n]
    decreases |posts|
  {
    if |posts| > 0 {
      var (outcome, dest') := MigratePost(posts[0], slugs[0], dest, load);
      if !outcome.Crashed? {
        PassKeepsImages(posts[1..], slugs[1..], dest', load);
      }
    }
  }

  /** The slugs the posts were discovered under, in discovery order. */
  function Names(posts: seq<SourcePost>): (r: seq<string>)
    ensures |r| == |posts|
    ensures forall i :: 0 <= i < |posts| ==> r[i] == posts[i].name
  {
    seq(|posts|, i requires 0 <= i < |posts| => posts[i].name)
  }

  /** The warnings raised, in order. */
  function Raised(ws: seq<Option<Slugs.Collision>>): (r: seq<Slugs.Collision>)
    ensures |r| <= |ws|
    ensures forall w :: w in r <==> Some(w) in ws
  {
    if |ws| == 0 then []
    else
      assert forall w :: Some(w) in ws <==> ws[0] == Some(w) || Some(w) in ws[1..];
      (if ws[0].Some? then [ws[0].value] else []) + Raised(ws[1..])
  }

  /** `main` as written: fail when the export root is missing, otherwise resolve and migrate every post. */
  function Run(exported: Option<seq<SourcePost>>, dest: Destination, load: string -> Loaded)
    : (r: Result<Summary, RunError>)
    ensures r.Err? <==> exported.None?
    ensures r.Ok? ==> r.value.pass.migrated <= |exported.value| && |r.value.warnings| <= |exported.value|
    ensures r.Ok? ==> forall w :: w in r.value.warnings ==>
      w.renamed != w.original && w.original in Names(exported.value)
  {
    match exported
    case None => Err(ExportMissing)
    case Some(posts) =>
      var res := Slugs.ResolveAll(Names(posts));
      Slugs.ResolveAllWarnings(Names(posts));
      Ok(Summary(MigrateUnder(posts, res.finals, dest, load), Raised(res.warnings)))
  }

  /** `main` with the corrected slug resolver. */
  function RunUnique(exported: Option<seq<SourcePost>>, dest: Destination, load: string -> Loaded)
    : (r: Result<Summary, RunError>)
    ensures r.Err? <==> exported.None?
    ensures r.Ok? ==> r.value.pass.migrated <= |exported.value| && |r.value.warnings| <= |exported.value|
  {
    match exported
    case None => Err(ExportMissing)
    case Some(posts) =>
      var res := Slugs.ResolveAllUnique(Names(posts));
      Ok(Summary(MigrateUnder(posts, res.0, dest, load), Raised(res.1)))
  }

  /**
   * Re-migrating posts under pairwise distinct slugs over unchanged input
   * writes nothing: the destination the first pass leaves behind is a fixed
   * point, every post is up to date or skipped again, and the same posts
   * count as migrated.
   */
  lemma {:induction false} MigrateUnderIdempotent(
    posts: seq<SourcePost>, slugs: seq<string>, dest: Destination, load: string -> Loaded)
    requires |slugs| == |posts| && Slugs.Distinct(slugs)
    requires !MigrateUnder(posts, slugs, dest, load).aborted
    ensures var first := MigrateUnder(posts, slugs, dest, load);
      var second := MigrateUnder(posts, slugs, first.dest, load);
      && second.dest == first.dest && second.migrated == first.migrated && !second.aborted
      && forall i :: 0 <= i < |second.outcomes| ==> !second.outcomes[i].Written?
    decreases |posts|
  {
    if |posts| > 0 {
      var slug := slugs[0];
      var (outcome, dest') := MigratePost(posts[0], slug, dest, load);
      var rest := MigrateUnder(posts[1..], slugs[1..], dest', load);
      DistinctTail(slugs);
      MigrateUnderIdempotent(posts[1..], slugs[1..], dest', load);
      var again := MigrateUnder(posts[1..], slugs[1..], rest.dest, load);
      var o2: Outcome;
      if outcome.Migrated() {
        assert slug in dest' && slug !in slugs[1..];
        MigratedStaysUpToDate(posts[0], slug, dest, rest.dest, load);
        o2 := UpToDate;
      } else {
        UnmigratedAnywhere(posts[0], slug, dest, rest.dest, load);
        o2 := outcome;
      }
      SecondPassCons(posts, slugs, rest.dest, load, o2, again);
    }
  }

  /** The pass over a non-empty list whose first post leaves the destination as it was. */
  lemma SecondPassCons(
    posts: seq<SourcePost>, slugs: seq<string>, d: Destination, load: string -> Loaded, o: Outcome, again: Pass)
    requires |slugs| == |posts| > 0
    requires MigratePost(posts[0], slugs[0], d, load) == (o, d) && !o.Crashed? && !o.Written?
    requires again == MigrateUnder(posts[1..], slugs[1..], d, load)
    requires forall i :: 0 <= i < |again.outcomes| ==> !again.outcomes[i].Written?
    ensures var r := MigrateUnder(posts, slugs, d, load);
      && r.dest == again.dest && r.aborted == again.aborted
      && r.migrated == again.migrated + (if o.Migrated() then 1 else 0)
      && forall i :: 0 <= i < |r.outcomes| ==> !r.outcomes[i].Written?
  {
    var r := MigrateUnder(posts, slugs, d, load);
    assert r.outcomes == [o] + again.outcomes;
  }

  lemma DistinctTail(s: seq<string>)
    requires |s| > 0 && Slugs.Distinct(s)
    ensures Slugs.Distinct(s[1..]) && s[0] !in s[1..]
  {
    forall i, j | 0 <= i < j < |s| - 1
      ensures s[1..][i] != s[1..][j]
    {
      assert s[1..][i] == s[i + 1] && s[1..][j] == s[j + 1];
    }
    forall k | 0 <= k < |s| - 1
      ensures s[1..][k] != s[0]
    {
      assert s[1..][k] == s[k + 1];
    }
  }

  /**
   * As written, a run is idempotent whenever the resolved slugs happen to be
   * distinct: a second run over unchanged input leaves the destination as
   * the first left it and reports the same count.
   */
  lemma RunIdempotent(posts: seq<SourcePost>, dest: Destination, load: string -> Loaded)
    requires Slugs.Distinct(Slugs.ResolveAll(Names(posts)).finals)
    requires !Run(Some(posts), dest, load).value.pass.aborted
    ensures var first := Run(Some(posts), dest, load).value.pass;
      var second := Run(Some(posts), first.dest, load).value.pass;
      second.dest == first.dest && second.migrated == first.migrated && !second.aborted
  {
    MigrateUnderIdempotent(posts, Slugs.ResolveAll(Names(posts)).finals, dest, load);
  }

  /** With the corrected resolver every run is idempotent. */
  lemma RunUniqueIdempotent(posts: seq<SourcePost>, dest: Destination, load: string -> Loaded)
    requires !RunUnique(Some(posts), dest, load).value.pass.aborted
    ensures var first := RunUnique(Some(posts), dest, load).value.pass;
      var second := RunUnique(Some(posts), first.dest, load).value.pass;
      && second.dest == first.dest && second.migrated == first.migrated && !second.aborted
      && forall i :: 0 <= i < |second.outcomes| ==> !second.outcomes[i].Written?
  {
    Slugs.ResolveAllUniqueDistinct(Names(posts));
    MigrateUnderIdempotent(posts, Slugs.ResolveAllUnique(Names(posts)).0, dest, load);
  }

  // ---------------------------------------------------------------------------
  // The as-written loop is not idempotent
  // ---------------------------------------------------------------------------

  /** A loader that reads every frontmatter text as an empty document. */
  function EmptyDocument(yaml: string): Loaded {
    NotMapping(false)
  }

  /** A post with empty frontmatter and body `b`. */
  function Plain(name: string, b: string, images: Option<Folder>): SourcePost {
    SourcePost(name, Frontmatter.Assemble(Frontmatter.YamlMarker, Frontmatter.Parts("", b)), images)
  }

  /** The document a `Plain` post with body `b` converts to. */
  function PlainDocument(b: string): string {
    Compose(Toml.YamlToToml([]), b)
  }

  lemma PlainConverts(name: string, b: string, images: Option<Folder>, slug: string)
    ensures Convert(Plain(name, b, images).raw, slug, EmptyDocument) == Ok(PlainDocument(b))
  {
    Frontmatter.SplitAssemble(Frontmatter.YamlMarker, Frontmatter.Parts("", b));
  }

  /** Documents of different one-character bodies differ in their last character. */
  lemma PlainDocumentsDiffer(b: char, c: char)
    requires b != c
    ensures PlainDocument([b]) != PlainDocument([c])
  {
    var db := PlainDocument([b]);
    var dc := PlainDocument([c]);
    assert db[|db| - 1] == b;
    assert dc[|dc| - 1] == c;
  }

  /** Three posts in discovery order: `a` without frontmatter, then `a` and `a-1`. */
  function CollidingPosts(): seq<SourcePost> {
    [SourcePost("a", "", None), Plain("a", "B", Some(map["x" := []])), Plain("a-1", "C", None)]
  }

  /** A destination already holding the second post's document under `a-1`. */
  function StaleDestination(): Destination {
    map["a-1" := PostDir(Some(PlainDocument("B")), None)]
  }

  /**
   * As written, the posts `a`, `a`, `a-1` are migrated under `a`, `a-1`,
   * `a-1`. Against a destination that already holds the second post's
   * document, the first run finds the second post up to date (copying none
   * of its images) and then overwrites it with the third; a second run over
   * the same input rewrites the directory again and copies the image, so the
   * destination keeps changing and the second post's document is lost.
   */
  lemma AsWrittenRerunDiffers()
    ensures var first := Run(Some(CollidingPosts()), StaleDestination(), EmptyDocument).value.pass;
      var second := Run(Some(CollidingPosts()), first.dest, EmptyDocument).value.pass;
      && !first.aborted && !second.aborted
      && second.dest != first.dest
      && forall s :: s in first.dest ==> first.dest[s].index != Some(PlainDocument("B"))
  {
    var posts := CollidingPosts();
    CollidingResolved();
    CollidingConverts();
    StaleRerun(posts, "a", "a-1", StaleDestination(), PlainDocument("B"), PlainDocument("C"), EmptyDocument);
    var first := Run(Some(posts), StaleDestination(), EmptyDocument).value.pass;
    RunPass(posts, StaleDestination(), EmptyDocument);
    RunPass(posts, first.dest, EmptyDocument);
  }

  /** As written, the colliding posts are resolved to `a`, `a-1`, `a-1`. */
  lemma CollidingResolved()
    ensures Slugs.ResolveAll(Names(CollidingPosts())).finals == ["a", "a-1", "a-1"]
  {
    assert Names(CollidingPosts()) == ["a", "a", "a-1"];
    Slugs.CollisionAsWritten();
  }

  /** The colliding posts: the first has no frontmatter, the other two convert to different documents. */
  lemma CollidingConverts()
    ensures var posts := CollidingPosts();
      && |posts| == 3
      && !Frontmatter.StartsWith(posts[0].raw, "---")
      && Convert(posts[1].raw, "a-1", EmptyDocument) == Ok(PlainDocument("B")) && posts[1].images.Some?
      && Convert(posts[2].raw, "a-1", EmptyDocument) == Ok(PlainDocument("C")) && posts[2].images.None?
      && PlainDocument("B") != PlainDocument("C")
  {
    PlainDocumentsDiffer('B', 'C');
    PlainConverts("a", "B", Some(map["x" := []]), "a-1");
    PlainConverts("a-1", "C", None, "a-1");
  }

  /** A run is the pass under the slugs the resolver as written hands out. */
  lemma RunPass(posts: seq<SourcePost>, dest: Destination, load: string -> Loaded)
    ensures Run(Some(posts), dest, load).value.pass == MigrateUnder(posts, Slugs.ResolveAll(Names(posts)).finals, dest, load)
  {
  }

  /**
   * Three posts under slugs `s, t, t`, the first without frontmatter: when
   * `t` already holds the second post's document, migrating twice changes
   * the destination twice, and the second post's document does not survive
   * the first pass.
   */
  lemma StaleRerun(posts: seq<SourcePost>, s: string, t: string, d0: Destination, docB: string, docC: string,
                   load: string -> Loaded)
    requires |posts| == 3
    requires !Frontmatter.StartsWith(posts[0].raw, "---")
    requires Convert(posts[1].raw, t, load) == Ok(docB) && posts[1].images.Some?
    requires Convert(posts[2].raw, t, load) == Ok(docC) && posts[2].images.None?
    requires docB != docC
    requires d0 == map[t := PostDir(Some(docB), None)]
    ensures var first := MigrateUnder(posts, [s, t, t], d0, load);
      var second := MigrateUnder(posts, [s, t, t], first.dest, load);
      && !first.aborted && !second.aborted
      && second.dest != first.dest
      && forall u :: u in first.dest ==> first.dest[u].index != Some(docB)
  {
    var d1 := map[t := PostDir(Some(docC), None)];
    var d2 := map[t := PostDir(Some(docC), posts[1].images)];
    StaleFirstPass(posts, s, t, d0, docB, docC, load);
    StaleSecondPass(posts, s, t, docB, docC, posts[1].images.value, load);
    assert d2[t] != d1[t];
  }

  /** The first pass: skipped, up to date, overwritten. */
  lemma StaleFirstPass(posts: seq<SourcePost>, s: string, t: string, d0: Destination, docB: string, docC: string,
                       load: string -> Loaded)
    requires |posts| == 3
    requires !Frontmatter.StartsWith(posts[0].raw, "---")
    requires Convert(posts[1].raw, t, load) == Ok(docB)
    requires Convert(posts[2].raw, t, load) == Ok(docC) && posts[2].images.None?
    requires docB != docC
    requires d0 == map[t := PostDir(Some(docB), None)]
    ensures MigrateUnder(posts, [s, t, t], d0, load).dest == map[t := PostDir(Some(docC), None)]
    ensures !MigrateUnder(posts, [s, t, t], d0, load).aborted
  {
    var d1 := map[t := PostDir(Some(docC), None)];
    NoOpenerSkipped(posts[0], s, d0, load);
    assert MigratePost(posts[1], t, d0, load) == (UpToDate, d0);
    OverwriteSole(posts[2], t, PostDir(Some(docB), None), docC, None, load);
    ThreeSteps(posts, [s, t, t], d0, d0, d0, d1, Skipped(NoFrontmatter), UpToDate, Written, load);
  }

  /** The second pass: skipped, overwritten, overwritten, with the images copied. */
  lemma StaleSecondPass(posts: seq<SourcePost>, s: string, t: string, docB: string, docC: string, image: Folder,
                        load: string -> Loaded)
    requires |posts| == 3
    requires !Frontmatter.StartsWith(posts[0].raw, "---")
    requires Convert(posts[1].raw, t, load) == Ok(docB) && posts[1].images == Some(image)
    requires Convert(posts[2].raw, t, load) == Ok(docC) && posts[2].images.None?
    requires docB != docC
    ensures var d1 := map[t := PostDir(Some(docC), None)];
      && MigrateUnder(posts, [s, t, t], d1, load).dest == map[t := PostDir(Some(docC), Some(image))]
      && !MigrateUnder(posts, [s, t, t], d1, load).aborted
  {
    var d1 := map[t := PostDir(Some(docC), None)];
    var mid := map[t := PostDir(Some(docB), Some(image))];
    var d2 := map[t := PostDir(Some(docC), Some(image))];
    NoOpenerSkipped(posts[0], s, d1, load);
    CopyIntoEmpty(image);
    OverwriteSole(posts[1], t, PostDir(Some(docC), None), docB, Some(image), load);
    OverwriteSole(posts[2], t, PostDir(Some(docB), Some(image)), docC, Some(image), load);
    ThreeSteps(posts, [s, t, t], d1, d1, mid, d2, Skipped(NoFrontmatter), Written, Written, load);
  }

  /** A converted post overwrites the only directory of a destination that holds another document. */
  lemma OverwriteSole(src: SourcePost, t: string, dir: PostDir, content: string, images: Option<Folder>,
                      load: string -> Loaded)
    requires Convert(src.raw, t, load) == Ok(content) && dir.index != Some(content)
    requires images == if src.images.None? then dir.images else Some(CopyMissing(dir.images.GetOr(map[]), src.images.value))
    ensures MigratePost(src, t, map[t := dir], load) == (Written, map[t := PostDir(Some(content), images)])
  {
    OverwriteStep(src, t, map[t := dir], content, load);
    assert map[t := dir][t := PostDir(Some(content), images)] == map[t := PostDir(Some(content), images)];
  }

  /** Copying into an empty folder copies everything. */
  lemma CopyIntoEmpty(src: Folder)
    ensures CopyMissing(map[], src) == src
  {
  }

  /** A converted post whose directory holds another document overwrites it. */
  lemma OverwriteStep(src: SourcePost, slug: string, d: Destination, content: string, load: string -> Loaded)
    requires Convert(src.raw, slug, load) == Ok(content)
    requires slug in d && d[slug].index != Some(content)
    ensures MigratePost(src, slug, d, load) == (Written, d[slug := PostDir(Some(content),
      if src.images.None? then d[slug].images else Some(CopyMissing(d[slug].images.GetOr(map[]), src.images.value)))])
  {
  }

  /** A pass whose first post does not crash continues from the destination that post leaves. */
  lemma ConsStep(posts: seq<SourcePost>, slugs: seq<string>, d: Destination, d': Destination, o: Outcome, load: string -> Loaded)
    requires |slugs| == |posts| > 0
    requires MigratePost(posts[0], slugs[0], d, load) == (o, d') && !o.Crashed?
    ensures MigrateUnder(posts, slugs, d, load).dest == MigrateUnder(posts[1..], slugs[1..], d', load).dest
    ensures MigrateUnder(posts, slugs, d, load).aborted == MigrateUnder(posts[1..], slugs[1..], d', load).aborted
  {
  }

  /** A pass over three posts none of which crashes, step by step. */
  lemma ThreeSteps(posts: seq<SourcePost>, slugs: seq<string>, d0: Destination, d1: Destination,
                   d2: Destination, d3: Destination, o0: Outcome, o1: Outcome, o2: Outcome, load: string -> Loaded)
    requires |posts| == 3 && |slugs| == 3
    requires !o0.Crashed? && !o1.Crashed? && !o2.Crashed?
    requires MigratePost(posts[0], slugs[0], d0, load) == (o0, d1)
    requires MigratePost(posts[1], slugs[1], d1, load) == (o1, d2)
    requires MigratePost(posts[2], slugs[2], d2, load) == (o2, d3)
    ensures MigrateUnder(posts, slugs, d0, load).dest == d3
    ensures !MigrateUnder(posts, slugs, d0, load).aborted
  {
    ConsStep(posts, slugs, d0, d1, o0, load);
    var p1, s1 := posts[1..], slugs[1..];
    assert p1[0] == posts[1] && s1[0] == slugs[1];
    ConsStep(p1, s1, d1, d2, o1, load);
    var p2, s2 := p1[1..], s1[1..];
    assert p2[0] == posts[2] && s2[0] == slugs[2] && |p2| == 1;
    ConsStep(p2, s2, d2, d3, o2, load);
    assert |p2[1..]| == 0;
  }
}

=== FILE: postwriter.dfy ===
/**
 * Converting one source post (migrate.py, `migrate_post`): split off the
 * YAML frontmatter, serialise it as TOML, compose the `+++` document, and
 * write it and the post's images into the destination only where needed.
 *
 * The file system is abstract: the destination is a map from post slug to
 * post directory, a directory holds an optional `index.md` text and an
 * optional `images/` folder (a map from file name to bytes).
 */
module PostWriter {
  import opened Results
  import opened Text
  import Frontmatter
  import Toml

  type Bytes = seq<bv8>
  type Folder = map<string, Bytes>

  datatype PostDir = PostDir(index: Option<string>, images: Option<Folder>)
  type Destination = map<string, PostDir>

  /** A discovered source post: its `index.md` text and its optional `images/` folder. */
  datatype SourcePost = SourcePost(name: string, raw: string, images: Option<Folder>)

  /**
   * What the foreign YAML loader returns for a frontmatter text: a mapping
   * (entries in declaration order), some other document (`truthy` says how
   * Python's `or {}` treats it), or a parse error.
   */
  datatype Loaded = Mapping(entries: seq<Toml.Entry>) | NotMapping(truthy: bool) | YamlError(message: string)

  datatype SkipReason = NoFrontmatter | UnclosedFrontmatter | YamlParse(message: string)

  /**
   * Skipped posts count as failures; `UpToDate` and `Written` count as
   * migrated. `Crashed` is the uncaught `AttributeError` of calling `.items()`
   * on a non-mapping document, which ends the whole run.
   */
  datatype Outcome = Skipped(reason: SkipReason) | UpToDate | Written | Crashed {
    predicate Migrated() { UpToDate? || Written? }
  }

  /** The output document: TOML frontmatter between `+++` lines, then the body. */
  function Compose(toml: string, body: string): (r: string)
    ensures r == Frontmatter.Assemble(Frontmatter.TomlMarker, Frontmatter.Parts("\n" + toml, "\n" + body))
  {
    "+++\n" + toml + "\n+++\n" + body
  }

  /**
   * The output document reads back: splitting it at `+++` returns the TOML
   * text and the body, each behind the newline that follows its delimiter,
   * as long as the TOML text itself holds no `\n+++`.
   */
  lemma ComposeRoundTrip(toml: string, body: string)
    requires Frontmatter.Splittable(Frontmatter.TomlMarker, "\n" + toml)
    ensures Frontmatter.Split(Frontmatter.TomlMarker, Compose(toml, body))
         == Ok(Frontmatter.Parts("\n" + toml, "\n" + body))
  {
    Frontmatter.SplitAssemble(Frontmatter.TomlMarker, Frontmatter.Parts("\n" + toml, "\n" + body));
  }

  /** `rewrite_image_refs`: image references already use the page-bundle layout. */
  function RewriteImageRefs(body: string, slug: string): (r: string)
    ensures r == body
  {
    body
  }

  /**
   * Copying source images into a destination folder by name: a file that is
   * already present is never overwritten, every other source file is added.
   */
  function CopyMissing(dst: Folder, src: Folder): (r: Folder)
    ensures r.Keys == dst.Keys + src.Keys
    ensures forall n :: n in dst ==> r[n] == dst[n]
    ensures forall n :: n in src && n !in dst ==> r[n] == src[n]
  {
    map n | n in dst.Keys + src.Keys :: if n in dst then dst[n] else src[n]
  }

  /** Copying a second time changes nothing. */
  lemma CopyMissingIdempotent(dst: Folder, src: Folder)
    ensures CopyMissing(CopyMissing(dst, src), src) == CopyMissing(dst, src)
  {
  }

  /** The document a source post converts to, or why it is skipped or crashes. */
  function Convert(raw: string, slug: string, load: string -> Loaded): (r: Result<string, Outcome>)
    ensures r.Err? ==> r.error.Skipped? || r.error.Crashed?
    ensures r == Err(Skipped(NoFrontmatter)) <==> !Frontmatter.StartsWith(raw, "---")
    ensures r == Err(Skipped(UnclosedFrontmatter)) <==> Frontmatter.Split(Frontmatter.YamlMarker, raw) == Err(Frontmatter.Unclosed)
    ensures r == Err(Crashed) <==>
      && Frontmatter.Split(Frontmatter.YamlMarker, raw).Ok?
      && load(Frontmatter.Split(Frontmatter.YamlMarker, raw).value.yaml) == NotMapping(true)
    ensures r.Err? && r.error.Skipped? && r.error.reason.YamlParse? <==>
      && Frontmatter.Split(Frontmatter.YamlMarker, raw).Ok?
      && load(Frontmatter.Split(Frontmatter.YamlMarker, raw).value.yaml).YamlError?
    ensures r.Err? && r.error.Skipped? && r.error.reason.YamlParse? ==>
      r.error.reason.message == load(Frontmatter.Split(Frontmatter.YamlMarker, raw).value.yaml).message
    ensures r.Ok? ==> Frontmatter.StartsWith(r.value, "+++\n")
  {
    match Frontmatter.Split(Frontmatter.YamlMarker, raw)
    case Err(e) => Err(Skipped(if e.NoFrontmatter? then NoFrontmatter else UnclosedFrontmatter))
    case Ok(parts) =>
      match load(parts.yaml)
      case YamlError(msg) => Err(Skipped(YamlParse(msg)))
      case NotMapping(truthy) =>
        if truthy then Err(Crashed)
        else Ok(Compose(Toml.YamlToToml([]), RewriteImageRefs(parts.body, slug)))
      case Mapping(entries) =>
        Ok(Compose(Toml.YamlToToml(entries), RewriteImageRefs(parts.body, slug)))
  }

  /**
   * The converted document carries the frontmatter's TOML: a mapping `es`
   * (or a falsy document, read as the empty mapping) comes back out of the
   * `+++` split as `YamlToToml(es)`, followed by the unchanged body.
   */
  lemma ConvertCarriesToml(raw: string, slug: string, load: string -> Loaded, es: seq<Toml.Entry>)
    requires Frontmatter.Split(Frontmatter.YamlMarker, raw).Ok?
    requires var doc := load(Frontmatter.Split(Frontmatter.YamlMarker, raw).value.yaml);
      doc == Mapping(es) || (doc == NotMapping(false) && es == [])
    requires Frontmatter.Splittable(Frontmatter.TomlMarker, "\n" + Toml.YamlToToml(es))
    ensures Convert(raw, slug, load).Ok?
    ensures Frontmatter.Split(Frontmatter.TomlMarker, Convert(raw, slug, load).value)
         == Ok(Frontmatter.Parts("\n" + Toml.YamlToToml(es), "\n" + Frontmatter.Split(Frontmatter.YamlMarker, raw).value.body))
  {
    var parts := Frontmatter.Split(Frontmatter.YamlMarker, raw).value;
    ComposeRoundTrip(Toml.YamlToToml(es), parts.body);
  }

  /** The post directory `slug` already holds an image named `n`. */
  predicate HasFile(dest: Destination, slug: string, n: string) {
    slug in dest && dest[slug].images.Some? && n in dest[slug].images.value
  }

  /** The destination after the post directory has been created if missing. */
  function EnsureDir(dest: Destination, slug: string): (r: Destination)
    ensures slug in r
    ensures slug in dest ==> r == dest
  {
    if slug in dest then dest else dest[slug := PostDir(None, None)]
  }

  /**
   * `migrate_post` on an abstract destination. The post directory is created
   * only once the frontmatter converted; an index already holding the new
   * document is left alone (and no images are copied); otherwise the index is
   * written and, when the source has an images folder, missing images are
   * copied next to it.
   */
  function MigratePost(src: SourcePost, slug: string, dest: Destination, load: string -> Loaded)
    : (r: (Outcome, Destination))
    ensures !r.0.Migrated() ==> r.1 == dest
    ensures forall s :: s in dest && s != slug ==> s in r.1 && r.1[s] == dest[s]
    ensures forall s :: s in r.1 ==> s in dest || s == slug
    ensures r.0.Migrated() ==>
      Convert(src.raw, slug, load).Ok? && slug in r.1 && r.1[slug].index == Some(Convert(src.raw, slug, load).value)
    ensures r.0.Migrated() && slug in dest && dest[slug].images.Some? ==>
      r.1[slug].images.Some? &&
      forall n :: n in dest[slug].images.value ==>
        n in r.1[slug].images.value && r.1[slug].images.value[n] == dest[slug].images.value[n]
    ensures r.0 == UpToDate <==>
      Convert(src.raw, slug, load).Ok? && slug in dest && dest[slug].index == Some(Convert(src.raw, slug, load).value)
    ensures r.0 == UpToDate ==> r.1 == dest
    ensures r.0 == Written && src.images.Some? ==>
      && r.1[slug].images.Some?
      && src.images.value.Keys <= r.1[slug].images.value.Keys
      && forall n :: n in src.images.value && !HasFile(dest, slug, n) ==>
           r.1[slug].images.value[n] == src.images.value[n]
  {
    match Convert(src.raw, slug, load)
    case Err(o) => (o, dest)
    case Ok(content) =>
      var d := EnsureDir(dest, slug);
      var dir := d[slug];
      if dir.index == Some(content) then (UpToDate, d)
      else
        var images :=
          if src.images.None? then dir.images
          else Some(CopyMissing(dir.images.GetOr(map[]), src.images.value));
        (Written, d[slug := PostDir(Some(content), images)])
  }

  /**
   * Idempotence: once a post has been migrated, migrating it again from the
   * same source reports it up to date and leaves the destination unchanged.
   */
  lemma MigrateTwice(src: SourcePost, slug: string, dest: Destination, load: string -> Loaded)
    requires MigratePost(src, slug, dest, load).0.Migrated()
    ensures var d1 := MigratePost(src, slug, dest, load).1;
      MigratePost(src, slug, d1, load) == (UpToDate, d1)
  {
  }

  /** A later destination that still holds the written directory finds the post up to date. */
  lemma MigratedStaysUpToDate(src: SourcePost, slug: string, dest: Destination, later: Destination, load: string -> Loaded)
    requires MigratePost(src, slug, dest, load).0.Migrated()
    requires slug in later && later[slug] == MigratePost(src, slug, dest, load).1[slug]
    ensures MigratePost(src, slug, later, load) == (UpToDate, later)
  {
  }

  /** A post that did not convert fails the same way against any destination. */
  lemma UnmigratedAnywhere(src: SourcePost, slug: string, dest: Destination, later: Destination, load: string -> Loaded)
    requires !MigratePost(src, slug, dest, load).0.Migrated()
    ensures MigratePost(src, slug, later, load) == (MigratePost(src, slug, dest, load).0, later)
  {
  }

  /** A post whose file has no opening `---` is skipped and writes nothing. */
  lemma NoOpenerSkipped(src: SourcePost, slug: string, dest: Destination, load: string -> Loaded)
    requires !Frontmatter.StartsWith(src.raw, "---")
    ensures MigratePost(src, slug, dest, load) == (Skipped(NoFrontmatter), dest)
  {
  }

  /** The body after the closing `---` reaches the output document unchanged, at its end. */
  lemma BodyPreserved(src: SourcePost, slug: string, load: string -> Loaded)
    requires Frontmatter.Split(Frontmatter.YamlMarker, src.raw).Ok?
    requires Convert(src.raw, slug, load).Ok?
    ensures var body := Frontmatter.Split(Frontmatter.YamlMarker, src.raw).value.body;
      var doc := Convert(src.raw, slug, load).value;
      |body| <= |doc| && doc[|doc| - |body|..] == body
  {
    var body := Frontmatter.Split(Frontmatter.YamlMarker, src.raw).value.body;
    var doc := Convert(src.raw, slug, load).value;
    var parts := Frontmatter.Split(Frontmatter.YamlMarker, src.raw).value;
    var toml := match load(parts.yaml)
      case Mapping(entries) => Toml.YamlToToml(entries)
      case _ => Toml.YamlToToml([]);
    assert doc == ("+++\n" + toml + "\n+++\n") + body;
  }
}

=== FILE: results.dfy ===
/** Small failure-carrying datatypes shared by both migration pipelines. */
module Results {

  /** A value that may be absent (Python's `None`). */
  datatype Option<+T> = None | Some(value: T) {
    function GetOr(default: T): T {
      match this
      case Some(v) => v
      case None => default
    }
  }

  /** Either a value or an error that the caller must handle. */
  datatype Result<+T, +E> = Ok(value: T) | Err(error: E)
}

=== FILE: slugs.dfy ===
/**
 * Slug-collision handling in the post migrator's main loop (migrate.py,
 * `main`). A registry maps each slug seen so far to a counter; a repeated
 * slug is renamed to `slug-N` where N is that counter, and a warning records
 * the rename.
 *
 * `ResolveAll` models the loop as written. It never registers the renamed
 * slug, so a later post whose own slug equals an earlier rename target
 * collides with it silently (`CollisionAsWritten`). `ResolveAllUnique` is
 * the corrected resolver: it also remembers every slug it hands out and skips
 * suffixes that are already taken, so output slugs are pairwise distinct
 * (`ResolveAllUniqueDistinct`).
 */
module Slugs {
  import opened Results
  import opened Text

  /** One rename: the slug a post came with and the slug it was given. */
  datatype Collision = Collision(original: string, renamed: string)

  /** The warning line printed for a rename. */
  function WarningText(c: Collision): string {
    "Slug collision: '" + c.original + "' \U{2192} renamed to '" + c.renamed + "'"
  }

  /** `f"{slug}-{n}"`. */
  function Suffixed(slug: string, n: nat): string {
    slug + "-" + NatStr(n)
  }

  /** Different suffixes of the same slug give different names. */
  lemma SuffixedInjective(slug: string, m: nat, n: nat)
    requires Suffixed(slug, m) == Suffixed(slug, n)
    ensures m == n
  {
    var k := |slug| + 1;
    assert Suffixed(slug, m)[k..] == NatStr(m);
    assert Suffixed(slug, n)[k..] == NatStr(n);
    NatStrInjective(m, n);
  }

  // ---------------------------------------------------------------------------
  // The resolver as written
  // ---------------------------------------------------------------------------

  /** The result of resolving a sequence of slugs: one final slug and one optional warning per post. */
  datatype Resolution = Resolution(finals: seq<string>, warnings: seq<Option<Collision>>, seen: map<string, nat>)

  /** The name the k-th earlier occurrence count gives a slug: itself when new, `slug-k` otherwise. */
  function Renamed(slug: string, k: nat): string {
    if k == 0 then slug else Suffixed(slug, k)
  }

  /** One iteration of the loop: look the slug up, rename on a hit, bump or create its counter. */
  function Step(seen: map<string, nat>, slug: string): (r: (string, Option<Collision>, map<string, nat>))
    ensures r.1.Some? <==> slug in seen
  {
    if slug in seen then
      var renamed := Suffixed(slug, seen[slug]);
      (renamed, Some(Collision(slug, renamed)), seen[slug := seen[slug] + 1])
    else (slug, None, seen[slug := 1])
  }

  /**
   * One iteration keeps a new slug's name and otherwise renames it to a longer
   * name that starts with it, warning with both names; the slug is then
   * registered and no other counter moves.
   */
  lemma StepSpec(seen: map<string, nat>, slug: string)
    ensures var r := Step(seen, slug);
      && (r.1.None? ==> r.0 == slug)
      && (r.1.Some? ==> r.1.value == Collision(slug, r.0) && |slug| < |r.0| && r.0[..|slug|] == slug)
      && r.2.Keys == seen.Keys + {slug} && r.2[slug] >= 1
      && forall s :: s in seen && s != slug ==> r.2[s] == seen[s]
  {
  }

  /** The loop over all discovered slugs, in discovery order, from an empty registry. */
  function ResolveAll(slugs: seq<string>): (r: Resolution)
    ensures |r.finals| == |slugs| && |r.warnings| == |slugs|
  {
    if |slugs| == 0 then Resolution([], [], map[])
    else
      var prev := ResolveAll(slugs[..|slugs| - 1]);
      var (f, w, seen) := Step(prev.seen, slugs[|slugs| - 1]);
      Resolution(prev.finals + [f], prev.warnings + [w], seen)
  }

  /** Every warning raised renames a slug of the run to a different name. */
  lemma {:induction false} ResolveAllWarnings(slugs: seq<string>)
    ensures forall w :: Some(w) in ResolveAll(slugs).warnings ==> w.renamed != w.original && w.original in slugs
  {
    if |slugs| > 0 {
      var init := slugs[..|slugs| - 1];
      ResolveAllWarnings(init);
      var prev := ResolveAll(init);
      var step := Step(prev.seen, slugs[|slugs| - 1]);
      assert ResolveAll(slugs).warnings == prev.warnings + [step.1];
      forall w | Some(w) in ResolveAll(slugs).warnings
        ensures w.renamed != w.original && w.original in slugs
      {
        if Some(w) in prev.warnings {
          assert w.original in init;
        } else {
          assert step.1 == Some(w);
        }
      }
    }
  }

  /**
   * Post `i` is named by how many times its slug occurred before it: the
   * first occurrence keeps its name, the k-th repeat becomes `slug-k` and
   * carries exactly one warning naming both slugs; a first occurrence
   * carries none.
   */
  predicate NamedByCount(slugs: seq<string>, r: Resolution, i: nat)
    requires i < |slugs| && i < |r.finals| && i < |r.warnings|
  {
    var k := multiset(slugs[..i])[slugs[i]];
    && r.finals[i] == Renamed(slugs[i], k)
    && r.warnings[i] == (if k == 0 then None else Some(Collision(slugs[i], r.finals[i])))
  }

  /** The registry counts occurrences, and every post is named by its count. */
  lemma ResolveAllByCount(slugs: seq<string>)
    ensures var r := ResolveAll(slugs);
      && CountsOccurrences(r.seen, slugs)
      && (forall i :: 0 <= i < |slugs| ==> NamedByCount(slugs, r, i))
  {
    ResolveAllCounts(slugs);
    ResolveAllNames(slugs);
  }

  /** The registry maps each slug to the number of posts that carried it. */
  lemma {:induction false} ResolveAllCounts(slugs: seq<string>)
    ensures CountsOccurrences(ResolveAll(slugs).seen, slugs)
  {
    if |slugs| > 0 {
      var n := |slugs| - 1;
      var init := slugs[..n];
      var last := slugs[n];
      ResolveAllCounts(init);
      ResolveAllSnoc(slugs);
      assert slugs == init + [last];
      CountsAfterStep(ResolveAll(init).seen, init, last);
    }
  }

  /** A step keeps the registry counting occurrences. */
  lemma CountsAfterStep(seen: map<string, nat>, slugs: seq<string>, s: string)
    requires CountsOccurrences(seen, slugs)
    ensures CountsOccurrences(Step(seen, s).2, slugs + [s])
  {
    StepCounter(seen, s);
    assert (if s in seen then seen[s] else 0) == multiset(slugs)[s];
    CountsStep(seen, slugs, s);
  }

  /** A step sets its slug's counter to one more than before, absent counting as zero. */
  lemma StepCounter(seen: map<string, nat>, slug: string)
    ensures Step(seen, slug).2 == seen[slug := (if slug in seen then seen[slug] else 0) + 1]
  {
  }

  /** `seen` holds exactly the slugs of `slugs`, each with its number of occurrences. */
  ghost predicate CountsOccurrences(seen: map<string, nat>, slugs: seq<string>) {
    && (forall x :: x in seen <==> x in multiset(slugs))
    && (forall x :: x in seen ==> seen[x] == multiset(slugs)[x])
  }

  lemma CountsStep(seen: map<string, nat>, slugs: seq<string>, s: string)
    requires CountsOccurrences(seen, slugs)
    ensures CountsOccurrences(seen[s := multiset(slugs)[s] + 1], slugs + [s])
  {
    assert multiset(slugs + [s]) == multiset(slugs) + multiset{s};
  }

  /** Resolving one more post appends its name and warning and updates its slug's counter. */
  lemma ResolveAllSnoc(slugs: seq<string>)
    requires |slugs| > 0
    ensures var prev := ResolveAll(slugs[..|slugs| - 1]);
      var step := Step(prev.seen, slugs[|slugs| - 1]);
      ResolveAll(slugs) == Resolution(prev.finals + [step.0], prev.warnings + [step.1], step.2)
  {
  }

  lemma {:induction false} ResolveAllNames(slugs: seq<string>)
    ensures forall i :: 0 <= i < |slugs| ==> NamedByCount(slugs, ResolveAll(slugs), i)
  {
    if |slugs| > 0 {
      var n := |slugs| - 1;
      ResolveAllNames(slugs[..n]);
      forall i | 0 <= i < |slugs|
        ensures NamedByCount(slugs, ResolveAll(slugs), i)
      {
        if i < n {
          NamedKept(slugs, i);
        } else {
          ResolveAllLast(slugs);
        }
      }
    }
  }

  /** Resolving one more post leaves the earlier posts' names and warnings as they were. */
  lemma NamedKept(slugs: seq<string>, i: nat)
    requires i < |slugs| - 1
    requires NamedByCount(slugs[..|slugs| - 1], ResolveAll(slugs[..|slugs| - 1]), i)
    ensures NamedByCount(slugs, ResolveAll(slugs), i)
  {
    var init := slugs[..|slugs| - 1];
    ResolveAllSnoc(slugs);
    assert ResolveAll(slugs).finals[i] == ResolveAll(init).finals[i];
    assert ResolveAll(slugs).warnings[i] == ResolveAll(init).warnings[i];
    PrefixOfInit(slugs, i);
  }

  lemma PrefixOfInit(s: seq<string>, i: nat)
    requires i < |s| - 1
    ensures s[..|s| - 1][..i] == s[..i] && s[..|s| - 1][i] == s[i]
  {
  }

  /** The last post of a run is named by its slug's count among the posts before it. */
  lemma ResolveAllLast(slugs: seq<string>)
    requires |slugs| > 0
    ensures NamedByCount(slugs, ResolveAll(slugs), |slugs| - 1)
  {
    ResolveAllCounts(slugs[..|slugs| - 1]);
  }

  /** The counter of a slug grows by exactly one per post carrying it. */
  lemma CounterStep(slugs: seq<string>, s: string)
    requires s in slugs
    ensures s in ResolveAll(slugs).seen
    ensures ResolveAll(slugs + [s]).seen[s] == ResolveAll(slugs).seen[s] + 1
  {
    ResolveAllCounts(slugs);
    assert (slugs + [s])[..|slugs|] == slugs;
  }

  /** As written, renamed slugs can clash with later original slugs. */
  lemma CollisionAsWritten()
    ensures ResolveAll(["a", "a", "a-1"]).finals == ["a", "a-1", "a-1"]
  {
    var r1 := ResolveAll(["a"]);
    assert ["a"][..0] == [];
    assert r1 == Resolution(["a"], [None], map["a" := 1]);
    var r2 := ResolveAll(["a", "a"]);
    assert ["a", "a"][..1] == ["a"];
    assert NatStr(1) == "1";
    assert Suffixed("a", 1) == "a-1";
    assert r2.finals == ["a", "a-1"];
    assert r2.seen == map["a" := 2];
    assert ["a", "a", "a-1"][..2] == ["a", "a"];
  }

  // ---------------------------------------------------------------------------
  // The corrected resolver
  // ---------------------------------------------------------------------------

  /** The names `slug-0` … `slug-(k-1)`. */
  function Suffixes(slug: string, k: nat): set<string> {
    set j | 0 <= j < k :: Suffixed(slug, j)
  }

  lemma SuffixesStep(slug: string, k: nat)
    ensures Suffixed(slug, k) !in Suffixes(slug, k)
    ensures Suffixes(slug, k + 1) == Suffixes(slug, k) + {Suffixed(slug, k)}
  {
    if Suffixed(slug, k) in Suffixes(slug, k) {
      var j :| 0 <= j < k && Suffixed(slug, j) == Suffixed(slug, k);
      SuffixedInjective(slug, j, k);
    }
  }

  /** The least suffix `n >= k` for which `slug-n` has not been handed out. */
  function FirstFree(slug: string, k: nat, used: set<string>): (n: nat)
    ensures k <= n
    ensures Suffixed(slug, n) !in used
    ensures forall j :: k <= j < n ==> Suffixed(slug, j) in used
    decreases used - Suffixes(slug, k)
  {
    if Suffixed(slug, k) !in used then k
    else
      SuffixesStep(slug, k);
      FirstFree(slug, k + 1, used)
  }

  /** The corrected registry: counters per original slug and every name handed out. */
  datatype Registry = Registry(counters: map<string, nat>, used: set<string>)

  /**
   * The corrected iteration: a slug not handed out yet keeps its name;
   * otherwise it gets the first free suffix from its counter on, and the
   * name it gets is remembered.
   */
  function StepUnique(reg: Registry, slug: string): (r: (string, Option<Collision>, Registry))
    ensures r.0 !in reg.used
    ensures r.2.used == reg.used + {r.0}
    ensures slug !in reg.used ==> r.0 == slug && r.1 == None
    ensures slug in reg.used ==>
      exists k: nat :: k >= 1 && r.0 == Suffixed(slug, k) && r.1 == Some(Collision(slug, r.0))
  {
    if slug !in reg.used then
      (slug, None, Registry(reg.counters[slug := 1], reg.used + {slug}))
    else
      var start := if slug in reg.counters then reg.counters[slug] else 1;
      var k := FirstFree(slug, if start == 0 then 1 else start, reg.used);
      var renamed := Suffixed(slug, k);
      (renamed, Some(Collision(slug, renamed)), Registry(reg.counters[slug := k + 1], reg.used + {renamed}))
  }

  /** The corrected loop over all discovered slugs, from an empty registry. */
  function ResolveAllUnique(slugs: seq<string>): (r: (seq<string>, seq<Option<Collision>>, Registry))
    ensures |r.0| == |slugs| && |r.1| == |slugs|
  {
    if |slugs| == 0 then ([], [], Registry(map[], {}))
    else
      var (finals, warnings, reg) := ResolveAllUnique(slugs[..|slugs| - 1]);
      var (f, w, reg') := StepUnique(reg, slugs[|slugs| - 1]);
      (finals + [f], warnings + [w], reg')
  }

  /** The corrected registry holds exactly the names handed out. */
  lemma {:induction false} ResolveAllUniqueUsed(slugs: seq<string>)
    ensures forall x :: x in ResolveAllUnique(slugs).2.used <==> x in ResolveAllUnique(slugs).0
  {
    if |slugs| > 0 {
      var init := slugs[..|slugs| - 1];
      ResolveAllUniqueUsed(init);
      var prev := ResolveAllUnique(init);
      var step := StepUnique(prev.2, slugs[|slugs| - 1]);
      assert ResolveAllUnique(slugs) == (prev.0 + [step.0], prev.1 + [step.1], step.2);
      forall x
        ensures x in step.2.used <==> x in prev.0 + [step.0]
      {
        assert x in prev.2.used <==> x in prev.0;
        assert x in prev.0 + [step.0] <==> x in prev.0 || x == step.0;
      }
    }
  }

  /** Pairwise distinct names. */
  predicate Distinct(s: seq<string>) {
    forall i, j :: 0 <= i < j < |s| ==> s[i] != s[j]
  }

  /** The corrected resolver gives every post its own output slug. */
  lemma {:induction false} ResolveAllUniqueDistinct(slugs: seq<string>)
    ensures Distinct(ResolveAllUnique(slugs).0)
  {
    if |slugs| > 0 {
      var init := slugs[..|slugs| - 1];
      ResolveAllUniqueDistinct(init);
      ResolveAllUniqueUsed(init);
      var (finals, warnings, reg) := ResolveAllUnique(init);
      var f := StepUnique(reg, slugs[|slugs| - 1]).0;
      assert f !in reg.used;
      var all := finals + [f];
      forall i, j | 0 <= i < j < |all|
        ensures all[i] != all[j]
      {
        if j == |finals| {
          assert all[i] == finals[i] && finals[i] in finals;
          assert finals[i] in reg.used;
        }
      }
    }
  }

  /**
   * In the corrected resolver a slug that no earlier post has been given
   * keeps its name and raises no collision warning.
   */
  lemma FirstOccurrenceKept(slugs: seq<string>, i: nat)
    requires i < |slugs|
    requires slugs[i] !in ResolveAllUnique(slugs[..i]).2.used
    ensures ResolveAllUnique(slugs).0[i] == slugs[i]
    ensures ResolveAllUnique(slugs).1[i] == None
  {
    ResolveAllUniqueAt(slugs, i);
    StepUniqueFresh(ResolveAllUnique(slugs[..i]).2, slugs[i]);
  }

  /** A slug not handed out yet passes through a corrected step unchanged and without warning. */
  lemma StepUniqueFresh(reg: Registry, slug: string)
    requires slug !in reg.used
    ensures StepUnique(reg, slug).0 == slug && StepUnique(reg, slug).1 == None
  {
  }

  /** Post `i`'s name and warning come from one corrected step after the posts before it. */
  lemma {:induction false} ResolveAllUniqueAt(slugs: seq<string>, i: nat)
    requires i < |slugs|
    ensures var step := StepUnique(ResolveAllUnique(slugs[..i]).2, slugs[i]);
      ResolveAllUnique(slugs).0[i] == step.0 && ResolveAllUnique(slugs).1[i] == step.1
    decreases |slugs|
  {
    var n := |slugs| - 1;
    if i == n {
      assert slugs[..n] + [slugs[n]] == slugs;
      ResolveAllUniqueLast(slugs[..n], slugs[n]);
    } else {
      var init := slugs[..n];
      ResolveAllUniqueAt(init, i);
      ResolveAllUniqueSnoc(slugs);
      assert init[..i] == slugs[..i] && init[i] == slugs[i];
    }
  }

  /** The name and warning of an appended post come from one corrected step after the others. */
  lemma ResolveAllUniqueLast(init: seq<string>, slug: string)
    ensures var step := StepUnique(ResolveAllUnique(init).2, slug);
      ResolveAllUnique(init + [slug]).0[|init|] == step.0 && ResolveAllUnique(init + [slug]).1[|init|] == step.1
  {
    assert (init + [slug])[..|init|] == init;
  }

  /** Resolving one more slug appends one name and one warning. */
  lemma ResolveAllUniqueSnoc(slugs: seq<string>)
    requires |slugs| > 0
    ensures var prev := ResolveAllUnique(slugs[..|slugs| - 1]);
      var r := ResolveAllUnique(slugs);
      && r.0[..|slugs| - 1] == prev.0
      && r.1[..|slugs| - 1] == prev.1
  {
  }
}

=== FILE: text.dfy ===
/**
 * String helpers shared by both pipelines: ASCII case folding, Python's
 * whitespace stripping, decimal rendering of naturals, substring search and
 * `sep.join(parts)`.
 */
module Text {
  import opened Results

  // ---------------------------------------------------------------------------
  // Case folding (ASCII model of Python's str.lower)
  // ---------------------------------------------------------------------------

  function LowerChar(c: char): char {
    if 'A' <= c <= 'Z' then (c as int + 32) as char else c
  }

  /** Python `s.lower()`, restricted to ASCII letters. */
  function Lower(s: string): (r: string)
    ensures |r| == |s|
    ensures forall i :: 0 <= i < |s| ==> r[i] == LowerChar(s[i])
    ensures forall i :: 0 <= i < |r| ==> !('A' <= r[i] <= 'Z')
  {
    seq(|s|, i requires 0 <= i < |s| => LowerChar(s[i]))
  }

  /** Lowering is idempotent: a folded string folds to itself. */
  lemma LowerIdempotent(s: string)
    ensures Lower(Lower(s)) == Lower(s)
  {
  }

  // ---------------------------------------------------------------------------
  // Whitespace stripping (Python's str.strip() with no argument)
  // ---------------------------------------------------------------------------

  /** The characters for which Python's `str.isspace()` holds. */
  predicate IsSpace(c: char) {
    || c == ' ' || c == '\t' || c == '\n' || c == '\r'
    || c == '\U{000B}' || c == '\U{000C}'
    || ('\U{001C}' <= c <= '\U{001F}')
    || c == '\U{0085}' || c == '\U{00A0}' || c == '\U{1680}'
    || ('\U{2000}' <= c <= '\U{200A}')
    || c == '\U{2028}' || c == '\U{2029}' || c == '\U{202F}'
    || c == '\U{205F}' || c == '\U{3000}'
  }

  predicate AllSpace(s: string) {
    forall i :: 0 <= i < |s| ==> IsSpace(s[i])
  }

  /** A string with no whitespace at either end. */
  predicate Trimmed(s: string) {
    |s| == 0 || (!IsSpace(s[0]) && !IsSpace(s[|s| - 1]))
  }

  /** The index of the first non-whitespace character at or after `i`, or `|s|` when there is none. */
  function SkipSpace(s: string, i: nat): (n: nat)
    requires i <= |s|
    ensures i <= n <= |s|
    ensures forall k :: i <= k < n ==> IsSpace(s[k])
    ensures n < |s| ==> !IsSpace(s[n])
    decreases |s| - i
  {
    if i < |s| && IsSpace(s[i]) then SkipSpace(s, i + 1) else i
  }

  /**
   * The index just past the last non-whitespace character before `j`, or
   * `lo` when `s[lo..j]` is all whitespace.
   */
  function BackSpace(s: string, lo: nat, j: nat): (m: nat)
    requires lo <= j <= |s|
    ensures lo <= m <= j
    ensures forall k :: m <= k < j ==> IsSpace(s[k])
    ensures m > lo ==> !IsSpace(s[m - 1])
    decreases j
  {
    if j > lo && IsSpace(s[j - 1]) then BackSpace(s, lo, j - 1) else j
  }

  /** `s` is `r` behind `pre` whitespace characters and followed by whitespace only. */
  predicate SurroundedBySpace(s: string, r: string, pre: nat) {
    && pre + |r| <= |s|
    && s[pre..pre + |r|] == r
    && (forall k :: 0 <= k < pre ==> IsSpace(s[k]))
    && (forall k :: pre + |r| <= k < |s| ==> IsSpace(s[k]))
  }

  /** Python `s.strip()`: the text between leading and trailing whitespace. */
  function Strip(s: string): (r: string)
    ensures Trimmed(r)
    ensures SurroundedBySpace(s, r, SkipSpace(s, 0))
  {
    var a := SkipSpace(s, 0);
    var e := BackSpace(s, a, |s|);
    var r := s[a..e];
    assert |r| > 0 ==> r[0] == s[a] && r[|r| - 1] == s[e - 1];
    r
  }

  /** The first non-whitespace character is where the text says it is. */
  lemma SkipSpaceAt(s: string, p: nat)
    requires p <= |s|
    requires forall k :: 0 <= k < p ==> IsSpace(s[k])
    requires p < |s| ==> !IsSpace(s[p])
    ensures SkipSpace(s, 0) == p
  {
  }

  /** The trailing whitespace starts where the text says it does. */
  lemma BackSpaceAt(s: string, lo: nat, q: nat)
    requires lo <= q <= |s|
    requires forall k :: q <= k < |s| ==> IsSpace(s[k])
    requires q > lo ==> !IsSpace(s[q - 1])
    ensures BackSpace(s, lo, |s|) == q
  {
  }

  /**
   * Strip is determined by its characterisation: whatever whitespace padding
   * surrounds a trimmed string, stripping recovers exactly that string.
   */
  lemma StripUnique(pre: string, r: string, post: string)
    requires AllSpace(pre) && AllSpace(post) && Trimmed(r)
    ensures Strip(pre + r + post) == r
  {
    var s := pre + r + post;
    var p := |pre|;
    var q := |pre| + |r|;
    assert forall k :: 0 <= k < p ==> s[k] == pre[k];
    assert forall k :: q <= k < |s| ==> s[k] == post[k - q];
    if |r| == 0 {
      SkipSpaceAt(s, |s|);
      BackSpaceAt(s, |s|, |s|);
    } else {
      assert s[p] == r[0] && s[q - 1] == r[|r| - 1];
      SkipSpaceAt(s, p);
      BackSpaceAt(s, p, q);
      assert s[p..q] == r;
    }
  }

  /** Stripping twice is stripping once. */
  lemma StripIdempotent(s: string)
    ensures Strip(Strip(s)) == Strip(s)
  {
    StripUnique("", Strip(s), "");
    assert "" + Strip(s) + "" == Strip(s);
  }

  // ---------------------------------------------------------------------------
  // Decimal rendering of naturals (Python's str(int) / f"{n}")
  // ---------------------------------------------------------------------------

  predicate IsDigit(c: char) {
    '0' <= c <= '9'
  }

  function DigitChar(d: nat): (c: char)
    requires d < 10
    ensures IsDigit(c)
  {
    ('0' as int + d) as char
  }

  function DigitValue(c: char): (d: nat)
    requires IsDigit(c)
    ensures d < 10
  {
    c as int - '0' as int
  }

  /** Value of a string of decimal digits. */
  function DigitsValue(s: string): nat
    requires forall i :: 0 <= i < |s| ==> IsDigit(s[i])
  {
    if |s| == 0 then 0 else 10 * DigitsValue(s[..|s| - 1]) + DigitValue(s[|s| - 1])
  }

  lemma DigitsValue2(a: char, b: char)
    requires IsDigit(a) && IsDigit(b)
    ensures DigitsValue([a, b]) == 10 * DigitValue(a) + DigitValue(b)
  {
    assert [a, b][..1] == [a];
    assert [a][..0] == [];
    assert DigitsValue([a]) == DigitValue(a);
  }

  lemma DigitsValue4(a: char, b: char, c: char, d: char)
    requires IsDigit(a) && IsDigit(b) && IsDigit(c) && IsDigit(d)
    ensures DigitsValue([a, b, c, d]) == 1000 * DigitValue(a) + 100 * DigitValue(b) + 10 * DigitValue(c) + DigitValue(d)
  {
    assert [a, b, c, d][..3] == [a, b, c];
    assert [a, b, c][..2] == [a, b];
    DigitsValue2(a, b);
  }

  /** Decimal rendering without leading zeros. */
  function NatStr(n: nat): (r: string)
    ensures 1 <= |r|
    ensures forall i :: 0 <= i < |r| ==> IsDigit(r[i])
    ensures r[0] == '0' ==> n == 0
    ensures |r| == 1 <==> n < 10
  {
    if n < 10 then [DigitChar(n)] else NatStr(n / 10) + [DigitChar(n % 10)]
  }

  /** Reading the rendering back gives the number. */
  lemma {:induction false} NatStrValue(n: nat)
    ensures DigitsValue(NatStr(n)) == n
  {
    if n >= 10 {
      var r := NatStr(n);
      assert r[..|r| - 1] == NatStr(n / 10);
      NatStrValue(n / 10);
    }
  }

  /** Different numbers render differently. */
  lemma NatStrInjective(m: nat, n: nat)
    requires NatStr(m) == NatStr(n)
    ensures m == n
  {
    NatStrValue(m);
    NatStrValue(n);
  }

  // ---------------------------------------------------------------------------
  // Substring search (Python's str.find(sub, start))
  // ---------------------------------------------------------------------------

  /** `pat` occurs in `s` starting at index `i`. */
  predicate OccursAt(s: string, pat: string, i: nat) {
    i + |pat| <= |s| && s[i..i + |pat|] == pat
  }

  /** Python `s.find(pat, from)`: the least index `>= from` where `pat` occurs. */
  function Find(s: string, pat: string, from: nat): (r: Option<nat>)
    ensures r.Some? ==> from <= r.value && OccursAt(s, pat, r.value)
    ensures r.Some? ==> forall k :: from <= k < r.value ==> !OccursAt(s, pat, k)
    ensures r.None? ==> forall k :: from <= k ==> !OccursAt(s, pat, k)
    decreases |s| - from
  {
    if from + |pat| > |s| then None
    else if s[from..from + |pat|] == pat then Some(from)
    else Find(s, pat, from + 1)
  }

  // ---------------------------------------------------------------------------
  // Joining (Python's sep.join(parts))
  // ---------------------------------------------------------------------------

  function Join(parts: seq<string>, sep: string): string {
    if |parts| == 0 then ""
    else if |parts| == 1 then parts[0]
    else parts[0] + sep + Join(parts[1..], sep)
  }

  /** Four parts joined. */
  lemma JoinFour(parts: seq<string>, sep: string)
    requires |parts| == 4
    ensures Join(parts, sep) == parts[0] + sep + parts[1] + sep + parts[2] + sep + parts[3]
  {
    assert parts[1..][1..] == parts[2..];
    assert parts[2..][1..] == parts[3..];
    assert Join(parts[3..], sep) == parts[3];
    assert Join(parts[2..], sep) == parts[2] + sep + parts[3];
    assert Join(parts[1..], sep) == parts[1] + sep + (parts[2] + sep + parts[3]);
  }

  /** Joining a concatenation joins each half and puts one separator between them. */
  lemma {:induction false} JoinAppend(p: seq<string>, q: seq<string>, sep: string)
    requires |p| > 0 && |q| > 0
    ensures Join(p + q, sep) == Join(p, sep) + sep + Join(q, sep)
  {
    if |p| == 1 {
      assert (p + q)[1..] == q;
    } else {
      assert (p + q)[1..] == p[1..] + q;
      JoinAppend(p[1..], q, sep);
    }
  }

  /** Python `s.split(c)` for a one-character separator: always at least one piece. */
  function SplitOn(s: string, c: char): (r: seq<string>)
    ensures |r| >= 1
  {
    if |s| == 0 then [""]
    else if s[0] == c then [""] + SplitOn(s[1..], c)
    else
      var rest := SplitOn(s[1..], c);
      [[s[0]] + rest[0]] + rest[1..]
  }

  /** A piece without the separator is its own split. */
  lemma {:induction false} SplitOnPlain(p: string, c: char)
    requires c !in p
    ensures SplitOn(p, c) == [p]
  {
    if |p| > 0 {
      SplitOnPlain(p[1..], c);
      assert [p[0]] + p[1..] == p;
    }
  }

  /** Splitting at the first separator peels off the piece before it. */
  lemma {:induction false} SplitOnFirst(p: string, c: char, q: string)
    requires c !in p
    ensures SplitOn(p + [c] + q, c) == [p] + SplitOn(q, c)
  {
    if |p| == 0 {
      assert p + [c] + q == [c] + q;
      assert ([c] + q)[1..] == q;
    } else {
      var s := p + [c] + q;
      assert s[1..] == p[1..] + [c] + q;
      SplitOnFirst(p[1..], c, q);
      assert [p[0]] + p[1..] == p;
    }
  }

  /** Splitting undoes joining when no piece holds the separator. */
  lemma {:induction false} SplitJoin(parts: seq<string>, c: char)
    requires |parts| >= 1
    requires forall i :: 0 <= i < |parts| ==> c !in parts[i]
    ensures SplitOn(Join(parts, [c]), c) == parts
  {
    if |parts| == 1 {
      SplitOnPlain(parts[0], c);
    } else {
      SplitJoin(parts[1..], c);
      SplitOnFirst(parts[0], c, Join(parts[1..], [c]));
      assert [parts[0]] + parts[1..] == parts;
    }
  }
}

=== FILE: toml.dfy ===
/**
 * YAML-to-TOML frontmatter serialisation (migrate.py, `yaml_to_toml`).
 *
 * The YAML parser is foreign: its output is taken as an ordered list of
 * entries. Each value carries `shown`, the text Python's `str(value)` gives
 * for it (a date renders as `YYYY-MM-DD`, a boolean as `True`/`False`), and,
 * when the value is a Python list, `items`, the `str` of each element.
 */
module Toml {
  import opened Results
  import opened Text

  datatype Value = Value(shown: string, items: Option<seq<string>>)
  datatype Entry = Entry(key: string, value: Value)

  // ---------------------------------------------------------------------------
  // Quote escaping
  // ---------------------------------------------------------------------------

  /** `str.replace('"', '\\"')`: a backslash before every double quote, nothing else. */
  function Escape(s: string): (r: string)
    ensures |s| == 0 ==> r == ""
  {
    if |s| == 0 then ""
    else if s[0] == '"' then "\\\"" + Escape(s[1..])
    else [s[0]] + Escape(s[1..])
  }

  /** Reads an escaped string back: `\"` becomes `"`, every other character stays. */
  function Unescape(s: string): string
  {
    if |s| == 0 then ""
    else if |s| >= 2 && s[0] == '\\' && s[1] == '"' then "\"" + Unescape(s[2..])
    else [s[0]] + Unescape(s[1..])
  }

  /** Every double quote in `s` directly follows a backslash. */
  predicate QuotesEscaped(s: string) {
    forall i :: 0 <= i < |s| && s[i] == '"' ==> i > 0 && s[i - 1] == '\\'
  }

  /** Escaping never leaves a bare double quote behind. */
  lemma {:induction false} EscapeQuotesEscaped(s: string)
    ensures QuotesEscaped(Escape(s))
  {
    if |s| > 0 {
      EscapeQuotesEscaped(s[1..]);
      var t := Escape(s[1..]);
      var r := Escape(s);
      if s[0] == '"' {
        assert r == "\\\"" + t;
        forall i | 0 <= i < |r| && r[i] == '"'
          ensures i > 0 && r[i - 1] == '\\'
        {
          if i >= 2 { assert r[i] == t[i - 2]; }
        }
      } else {
        assert r == [s[0]] + t;
        forall i | 0 <= i < |r| && r[i] == '"'
          ensures i > 0 && r[i - 1] == '\\'
        {
          if i >= 1 { assert r[i] == t[i - 1]; }
        }
      }
    }
  }

  /** The first character of an escaped non-empty string. */
  lemma EscapeHead(s: string)
    requires |s| > 0
    ensures Escape(s)[0] == (if s[0] == '"' then '\\' else s[0])
  {
  }

  /** Escaping is undone by reading the escapes back. */
  lemma {:induction false} EscapeRoundTrip(s: string)
    ensures Unescape(Escape(s)) == s
  {
    if |s| > 0 {
      EscapeRoundTrip(s[1..]);
      var t := Escape(s[1..]);
      if s[0] == '"' {
        assert Escape(s) == "\\\"" + t;
        assert Escape(s)[2..] == t;
      } else {
        assert Escape(s) == [s[0]] + t;
        assert Escape(s)[1..] == t;
        if s[0] == '\\' && |t| > 0 {
          EscapeHead(s[1..]);
        }
      }
    }
  }

  // ---------------------------------------------------------------------------
  // Per-key rules
  // ---------------------------------------------------------------------------

  const MidnightUtc: string := "T00:00:00Z"

  function Quote(s: string): string {
    "\"" + s + "\""
  }

  /** `", ".join(f'"{v}"' for v in items)`: items are quoted but not escaped. */
  function QuotedItems(items: seq<string>): (r: string)
    ensures |items| == 0 ==> r == ""
  {
    Join(seq(|items|, i requires 0 <= i < |items| => Quote(items[i])), ", ")
  }

  /** The TOML text one frontmatter entry becomes, by key first and value shape second. */
  function RenderEntry(e: Entry): string {
    if e.key == "date" then "date = " + e.value.shown + MidnightUtc
    else if e.key == "draft" then "draft = " + Lower(e.value.shown)
    else if e.key == "coverImage" then "[cover]\n  image = \"images/" + e.value.shown + "\""
    else if e.value.items.Some? then e.key + " = [" + QuotedItems(e.value.items.value) + "]"
    else e.key + " = " + Quote(Escape(e.value.shown))
  }

  /** The entries rendered one by one, in input order. */
  function RenderAll(data: seq<Entry>): (r: seq<string>)
    ensures |r| == |data|
    ensures forall i :: 0 <= i < |data| ==> r[i] == RenderEntry(data[i])
  {
    seq(|data|, i requires 0 <= i < |data| => RenderEntry(data[i]))
  }

  /** `yaml_to_toml`: each entry rendered, joined with newlines. */
  function YamlToToml(data: seq<Entry>): (r: string)
    ensures r == Join(RenderAll(data), "\n")
  {
    if |data| == 0 then ""
    else if |data| == 1 then RenderEntry(data[0])
    else
      assert RenderAll(data)[1..] == RenderAll(data[1..]);
      RenderEntry(data[0]) + "\n" + YamlToToml(data[1..])
  }

  // ---------------------------------------------------------------------------
  // Properties of the serialiser
  // ---------------------------------------------------------------------------

  /** Python's `str` of a `datetime.date`: `YYYY-MM-DD`. */
  predicate IsoDate(s: string) {
    && |s| == 10 && s[4] == '-' && s[7] == '-'
    && forall i :: 0 <= i < 10 && i != 4 && i != 7 ==> IsDigit(s[i])
  }

  /**
   * An RFC 3339 `date-time` with a numeric time and the `Z` offset:
   * `YYYY-MM-DDTHH:MM:SSZ` (section 5.6 of RFC 3339).
   */
  predicate Rfc3339Utc(t: string) {
    && |t| == 20 && IsoDate(t[..10]) && t[10] == 'T' && t[13] == ':' && t[16] == ':' && t[19] == 'Z'
    && IsDigit(t[11]) && IsDigit(t[12]) && IsDigit(t[14]) && IsDigit(t[15]) && IsDigit(t[17]) && IsDigit(t[18])
  }

  /**
   * A `date` entry whose value is a calendar date becomes an unquoted RFC 3339
   * timestamp at 00:00:00 UTC on that same year, month and day.
   */
  lemma DateRule(v: Value)
    requires IsoDate(v.shown)
    ensures var line := RenderEntry(Entry("date", v));
      && |line| == 27 && line[..7] == "date = "
      && Rfc3339Utc(line[7..])
      && DigitsValue(line[7..11]) == DigitsValue(v.shown[..4])
      && DigitsValue(line[12..14]) == DigitsValue(v.shown[5..7])
      && DigitsValue(line[15..17]) == DigitsValue(v.shown[8..10])
      && DigitsValue(line[18..20]) == 0 && DigitsValue(line[21..23]) == 0 && DigitsValue(line[24..26]) == 0
  {
    var line := RenderEntry(Entry("date", v));
    var t := line[7..];
    assert line == "date = " + v.shown + MidnightUtc;
    assert t == v.shown + MidnightUtc;
    assert t[..10] == v.shown;
    assert line[7..11] == v.shown[..4] && line[12..14] == v.shown[5..7] && line[15..17] == v.shown[8..10];
    assert line[18..20] == ['0', '0'] && line[21..23] == ['0', '0'] && line[24..26] == ['0', '0'];
    DigitsValue2('0', '0');
  }

  /** A `draft` flag that YAML read as a boolean becomes the matching TOML boolean, unquoted. */
  lemma DraftRule(v: Value)
    ensures v.shown == "True" ==> RenderEntry(Entry("draft", v)) == "draft = true"
    ensures v.shown == "False" ==> RenderEntry(Entry("draft", v)) == "draft = false"
  {
    if v.shown == "True" {
      assert Lower("True") == "true";
    } else if v.shown == "False" {
      assert Lower("False") == "false";
    }
  }

  /**
   * A `coverImage` entry becomes two lines: the `[cover]` table header, then an
   * indented `image` key naming the file under `images/`.
   */
  lemma CoverRule(v: Value)
    requires '\n' !in v.shown
    ensures SplitOn(RenderEntry(Entry("coverImage", v)), '\n') == ["[cover]", "  image = \"images/" + v.shown + "\""]
  {
    var second := "  image = \"images/" + v.shown + "\"";
    assert RenderEntry(Entry("coverImage", v)) == "[cover]" + ['\n'] + second;
    assert '\n' !in "  image = \"images/";
    assert '\n' !in second by {
      forall i | 0 <= i < |second| ensures second[i] != '\n' {
        if 18 <= i < |second| - 1 { assert second[i] == v.shown[i - 18]; }
      }
    }
    SplitOnFirst("[cover]", '\n', second);
    SplitOnPlain(second, '\n');
  }

  predicate OrdinaryKey(key: string) {
    key != "date" && key != "draft" && key != "coverImage"
  }

  /** The quoted items of a longer list are those of its prefix, a comma, and the last one quoted. */
  lemma QuotedItemsSnoc(items: seq<string>, x: string)
    requires |items| > 0
    ensures QuotedItems(items + [x]) == QuotedItems(items) + ", " + Quote(x)
  {
    var q := seq(|items|, i requires 0 <= i < |items| => Quote(items[i]));
    var q' := seq(|items + [x]|, i requires 0 <= i < |items + [x]| => Quote((items + [x])[i]));
    assert q' == q + [Quote(x)];
    JoinAppend(q, [Quote(x)], ", ");
  }

  /**
   * A list under an ordinary key becomes a bracketed list of quoted items
   * separated by `, `: `[]` when empty, one quoted item when single, and each
   * further item adds `, "item"` before the closing bracket.
   */
  lemma ListRule(key: string, items: seq<string>, x: string, shown: string)
    requires OrdinaryKey(key)
    ensures |items| == 0 ==> RenderEntry(Entry(key, Value(shown, Some(items)))) == key + " = []"
    ensures RenderEntry(Entry(key, Value(shown, Some([x])))) == key + " = [\"" + x + "\"]"
    ensures |items| > 0 ==>
      var line := RenderEntry(Entry(key, Value(shown, Some(items))));
      && |line| > 0 && line[|line| - 1] == ']'
      && RenderEntry(Entry(key, Value(shown, Some(items + [x])))) == line[..|line| - 1] + ", \"" + x + "\"]"
  {
    ListLine(key, items, shown);
    ListLine(key, [x], shown);
    QuotedItemsSingle(x);
    if |items| > 0 {
      ListLine(key, items + [x], shown);
      QuotedItemsSnoc(items, x);
      TrimBracket(key + " = [" + QuotedItems(items));
    }
  }

  /** The line of a list under an ordinary key, in terms of its quoted items. */
  lemma ListLine(key: string, items: seq<string>, shown: string)
    requires OrdinaryKey(key)
    ensures RenderEntry(Entry(key, Value(shown, Some(items)))) == key + " = [" + QuotedItems(items) + "]"
  {
  }

  lemma QuotedItemsSingle(x: string)
    ensures QuotedItems([x]) == Quote(x)
  {
    var single := seq(|[x]|, i requires 0 <= i < |[x]| => Quote([x][i]));
    assert single == [Quote(x)];
  }

  lemma TrimBracket(p: string)
    ensures var line := p + "]"; |line| > 0 && line[|line| - 1] == ']' && line[..|line| - 1] == p
  {
    var line := p + "]";
    assert line[..|line| - 1] == p;
  }

  /**
   * Any other scalar under an ordinary key becomes a double-quoted string whose
   * inner text has every quote backslash-escaped and reads back as the value.
   */
  lemma ScalarRule(key: string, shown: string)
    requires OrdinaryKey(key)
    ensures var line := RenderEntry(Entry(key, Value(shown, None)));
      exists inner :: line == key + " = \"" + inner + "\"" && QuotesEscaped(inner) && Unescape(inner) == shown
  {
    EscapeQuotesEscaped(shown);
    EscapeRoundTrip(shown);
    var inner := Escape(shown);
    assert RenderEntry(Entry(key, Value(shown, None))) == key + " = \"" + inner + "\"";
  }

  /** Serialising a concatenation is serialising each half and joining with a newline. */
  lemma YamlToTomlAppend(a: seq<Entry>, b: seq<Entry>)
    requires |a| > 0 && |b| > 0
    ensures YamlToToml(a + b) == YamlToToml(a) + "\n" + YamlToToml(b)
  {
    assert RenderAll(a + b) == RenderAll(a) + RenderAll(b);
    JoinAppend(RenderAll(a), RenderAll(b), "\n");
  }

  /** A rendered entry that occupies exactly one line. */
  predicate SingleLine(e: Entry) {
    '\n' !in RenderEntry(e)
  }

  /**
   * One line per entry, in input order: when no entry spans several lines,
   * splitting the output at newlines yields exactly the rendered entries.
   */
  lemma OneLinePerEntry(data: seq<Entry>)
    requires |data| > 0
    requires forall i :: 0 <= i < |data| ==> SingleLine(data[i])
    ensures SplitOn(YamlToToml(data), '\n') == RenderAll(data)
    ensures |SplitOn(YamlToToml(data), '\n')| == |data|
  {
    SplitJoin(RenderAll(data), '\n');
  }

  /** The four entries of the example below, rendered one by one. */
  lemma ExampleEntries()
    ensures RenderEntry(Entry("date", Value("2024-01-05", None))) == "date = 2024-01-05T00:00:00Z"
    ensures RenderEntry(Entry("draft", Value("False", None))) == "draft = false"
    ensures RenderEntry(Entry("tags", Value("['a', 'b']", Some(["a", "b"])))) == "tags = [\"a\", \"b\"]"
    ensures RenderEntry(Entry("coverImage", Value("x.png", None))) == "[cover]\n  image = \"images/x.png\""
  {
    DraftRule(Value("False", None));
    ExampleTags();
  }

  lemma ExampleTags()
    ensures RenderEntry(Entry("tags", Value("['a', 'b']", Some(["a", "b"])))) == "tags = [\"a\", \"b\"]"
  {
    assert OrdinaryKey("tags") by {
      assert "tags"[0] != "date"[0] && |"tags"| != |"draft"| && |"tags"| != |"coverImage"|;
    }
    ListLine("tags", ["a", "b"], "['a', 'b']");
    TwoItems("a", "b");
  }

  /** Two items are quoted and separated by a comma and a space. */
  lemma TwoItems(x: string, y: string)
    ensures QuotedItems([x, y]) == Quote(x) + ", " + Quote(y)
  {
    QuotedItemsSnoc([x], y);
    QuotedItemsSingle(x);
    assert [x] + [y] == [x, y];
  }

  /** A typical frontmatter block with one entry of each special kind. */
  lemma Example()
    ensures YamlToToml([
      Entry("date", Value("2024-01-05", None)),
      Entry("draft", Value("False", None)),
      Entry("tags", Value("['a', 'b']", Some(["a", "b"]))),
      Entry("coverImage", Value("x.png", None))])
      == "date = 2024-01-05T00:00:00Z" + "\n"
       + "draft = false" + "\n"
       + "tags = [\"a\", \"b\"]" + "\n"
       + "[cover]\n  image = \"images/x.png\""
  {
    var data := [
      Entry("date", Value("2024-01-05", None)),
      Entry("draft", Value("False", None)),
      Entry("tags", Value("['a', 'b']", Some(["a", "b"]))),
      Entry("coverImage", Value("x.png", None))];
    var lines := RenderAll(data);
    assert lines == [RenderEntry(data[0]), RenderEntry(data[1]), RenderEntry(data[2]), RenderEntry(data[3])];
    JoinFour(lines, "\n");
    ExampleEntries();
  }
}
